=== FILE: README.md ===
# Winchester Paradox: a Dafny model of its store, client state and display rules

This project models the parts of the Winchester Paradox web site that hold
logic: the Express JSON-file store behind `/api`, its earlier variant, the
React client's data cache and login session, the gallery's category filter,
and the item page's display rules. Every handler and state update is a pure
function over immutable values. The clock, the file system and the network
are parameters.

Modules, one per component:

- `Seqs` defines the JavaScript array operations the code relies on:
  - `filter`, `findIndex`, `splice(i, 1)` and the replacing `map`;
  - the subsequence relation, and the facts about these operations the rest of the model uses.
- `Decimal` covers `Number.prototype.toString` on whole numbers up to 2^53 (`Number.MAX_SAFE_INTEGER`), which is how the server turns `Date.now()` into ids and tokens. `Decimal.ParseText` proves the round trip.
- `Data` holds the shared shapes:
  - items as stored JSON objects (`Record = map<string, Json>`, so object spread is map union);
  - the client's typed `Item` and `Subscriber` interfaces, with `Encode`/`Decode` between a typed item and its record;
  - replies, and the effect a handler has on the backing file (`Effect`, `Apply`).
- `Store` is `server/server.js`. It covers the default document, `readData` with its fallback, every `/api/items*`, `/api/subscribe`, `/api/subscribers/:id` and `/api/login` handler, and `Serve`, which reads the file, dispatches the request and applies the effect.
- `StoreFacts` proves properties that span several requests: read-after-write, id and e-mail uniqueness, masking of a missing or corrupt file, and failed writes.
- `Legacy` is `server.js`, the earlier server. Its lemmas state where it differs from the current one.
- `ClientCache` is `src/context/DataContext.tsx`: how each call changes the cached `items` and `subscribers` after the request succeeds or fails.
- `Auth` is `src/context/AuthContext.tsx`: the `isAuthenticated` flag and the two browser-storage keys.
- `Gallery` is the `filteredItems` callback and `galleryData`. They appear with identical logic in `src/pages/Gallery.tsx` and `src/components/gallery/Gallery.tsx`, so one definition models both.
- `ItemDetail` is `src/pages/ItemDetail.tsx`: the badge tables, the price and purchase-link conditions, and the loading / not-found / detail choice.
- `Reconcile` connects the client to the server. It says when a cache that shows what a fresh fetch would still does so after each call, and where it does not.

External effects are inputs:

- The backing file is a `FileState`: `Missing`, `Corrupt` or `Parsed(document)`, where a document has the `items`, `subscribers` and `admin` fields.
- Whether `writeFileSync` succeeds is the boolean `writeOk`.
- `Date.now()` and `new Date().toISOString()` are the parameters `now` and `nowIso`.
- An axios call's outcome is `Http`: a 2xx payload, or a failure with its status when there was a reply.

## Behaviour worth knowing

- A missing file is written back with the default document when it is read (`Store.AfterRead`). A corrupt file is read as the default but is left on disk until the next successful write replaces it (`StoreFacts.CorruptFileOverwritten`). It is not reset on reading.
- Creation puts the generated id before the body fields, so an `id` in the body wins and can duplicate an existing id (`StoreFacts.CreateWithTakenIdDuplicates`). The generated id is guaranteed fresh only when the body has no id and the clock reading is new; a body id that no item carries is fresh as well.
- `price` is not checked to be non-negative, and `type` and `status` are not checked at all. A record that is not a well-formed `Item` is stored and served as sent.
- `DataContext`'s own calls (`addItem`, `updateItem`, `deleteItem`, `subscribe`, `deleteSubscriber`) update the cache locally from the reply and do not refetch. `updateItem` replaces and `deleteItem` drops every cached entry with the id, while the server changes only the first (`Reconcile.UpdateDivergesOnDuplicateIds`, `Reconcile.DeleteDivergesOnDuplicateIds`). The provider fetches the items once when it mounts (`Reconcile.MountFetchesItemsOnly`). The item manager, which is not modelled, calls `fetchItems()` after each add, update and delete, and the subscriber list fetches when it mounts; a fetch brings any cache back in step (`Reconcile.FetchBringsInSync`).
- A record whose `price` is `true` passes the page's `price > 0` check, but `true` has no `toFixed`, so rendering the item page throws (`ItemDetail.Select`, the `Crashed` view). A `type` of `"__proto__"` throws too: the label lookup yields `Object.prototype`, and React refuses an object as a child. The server stores any body, so such records can be created.
- `GET /api/items/all` is registered before `GET /api/items/:id`, and Express matches paths regardless of letter case. The item page for the id `all`, `ALL` or any other casing therefore receives the full item array and renders an empty detail page, and an item given such an id by its creator can never be fetched (`Store.ItemsPath`, `StoreFacts.AllPathShadowsItem`, `Reconcile.ItemPageShowsLookup`).

## Model

| member | source | states |
|---|---|---|
| Seqs.Filter | server/server.js:84 | `Array.prototype.filter`: the kept elements are exactly those satisfying the predicate, each with its original multiplicity |
| Seqs.FilterIsSubsequence | server/server.js:84 | a filtered array keeps the stored order (it is a subsequence of the input) |
| Seqs.FirstIndex | server/server.js:121 | `findIndex`: the index of the first element satisfying the predicate, or none exactly when no element does |
| Seqs.RemoveAt | server/server.js:149 | `splice(i, 1)`: the elements before `i` stay in place, the ones after shift down by one, and only the one at `i` is lost |
| Seqs.RemoveOnlyFailure | src/context/DataContext.tsx:94 | removing the only element a predicate rejects gives the same array as filtering by that predicate |
| Seqs.ReplaceBoth | src/context/DataContext.tsx:83 | the replacing `map` turns a pair of matching entries into two copies of the new record |
| Seqs.ReplaceWhere | src/context/DataContext.tsx:83 | `map(i => match ? data : i)`: matching entries become the new record, the others and the length are unchanged |
| Decimal.Text | server/server.js:105 | the decimal text of a whole number is non-empty, all digits, and has no leading zero |
| Decimal.ParseText | server/server.js:105 | reading back the decimal text of `Date.now()` gives the same number |
| Decimal.TextInjective | server/server.js:178 | different clock readings give different ids |
| Data.TypeNamed | src/context/DataContext.tsx:9 | the three `type` strings name the three item kinds, one each |
| Data.StatusNamed | src/context/DataContext.tsx:14 | `'active'` and `'inactive'` name the two statuses, one each |
| Data.Encode | src/context/DataContext.tsx:6-15 | a typed item is stored with exactly the interface's eight keys, its id as a string, and is active exactly when its status is `'active'` |
| Data.DecodeEncode | src/context/DataContext.tsx:6-15 | reading a stored item back as the interface gives the same item |
| Data.EncodeDecode | src/context/DataContext.tsx:6-15 | a record that reads as an `Item` agrees with that item's encoding on every declared key |
| Data.Apply | server/server.js:71-79 | a handler's write either succeeds (the new document and the success reply) or fails (the old file and the error reply) |
| Store.LoadFallback | server/server.js:15-69 | a missing or unparsable file reads as the default document: the three active seeds with ids "1", "2", "3", no subscribers, admin/paradox; reading rewrites the file only when it was missing and the write succeeds, and never changes what is read |
| Store.ListActive | server/server.js:82-85 | GET /api/items answers 200 with exactly the stored items whose status is `'active'`, in stored order |
| Store.ListAll | server/server.js:87-90 | GET /api/items/all answers with the stored items unchanged |
| Store.GetItem | server/server.js:92-100 | lookup by id answers the first item with that exact id, or 404 "Item not found" exactly when none has it |
| Store.ItemsPath | server/server.js:87-92 | a `GET` of `/api/items/<segment>` reaches the full listing exactly when the segment is `all` in any letter case, and the lookup by id otherwise |
| Store.Create | server/server.js:102-117 | create appends one record at the end and keeps the prefix. The record takes the clock's id unless the body has one, takes every body field, and is stamped with `createdAt` and status active whatever the body says. The replies are 201 or 500 "Failed to create item" |
| Store.Update | server/server.js:119-139 | an unknown id answers 404 and writes nothing. Otherwise only the first match changes, to the old record merged with the body, with `id` and `createdAt` kept as before. The replies are 200 with the new record or 500 "Failed to update item" |
| Store.MergedIsMerge | server/server.js:127-132 | the updated record keeps the old `id` and `createdAt` (present exactly when they were before), takes every other key from the body when it has one, and keeps the old value otherwise |
| Store.Delete | server/server.js:141-156 | an unknown id answers 404. Otherwise exactly the first match is removed and the rest keep their order. The replies are "Item deleted successfully" or 500 |
| Store.ListSubscribers | server/server.js:159-162 | GET /api/subscribers answers 200 with the stored subscribers unchanged |
| Store.Subscribe | server/server.js:164-190 | a missing, empty or `@`-less address answers 400; a known address answers 409; otherwise `{id, email, subscribedAt}` is appended and the reply is 201 "Subscribed successfully" with the subscriber, or 500 |
| Store.DeleteSubscriber | server/server.js:192-207 | removes exactly the first subscriber with that id, or answers 404 "Subscriber not found" when there is none |
| Store.Login | server/server.js:210-223 | 200 exactly when both fields equal the stored credential. The token is `paradox_token_` followed by the clock's digits, with no leading zero. Anything else answers 401 "Invalid credentials" |
| Store.Serve | server/server.js:57-79 | read-only requests change the file only by the default write of `readData`; an invalid address is refused before the file is read; a changed file is always a parsed document written with success; a 500 leaves the stored data as it was |
| StoreFacts.ActiveListingWithinAll | server/server.js:82-90 | the public listing is the full listing minus the inactive items, in the same order |
| StoreFacts.CreateThenGet | server/server.js:92-117 | a created item, with a fresh generated id, is what a lookup of that id returns, and it is active with the given `createdAt` |
| StoreFacts.CreateKeepsIdsUnique | server/server.js:102-110 | creating without a body id and with a fresh clock keeps item ids unique |
| StoreFacts.CreateWithTakenIdDuplicates | server/server.js:104-106 | a body id that is already taken produces two items with that id |
| StoreFacts.UpdateKeepsIdsUnique | server/server.js:127-132 | an update cannot change an id, so ids stay unique |
| StoreFacts.DeleteKeepsIdsUnique | server/server.js:141-149 | deleting keeps ids unique |
| StoreFacts.DeleteThenGetMissing | server/server.js:92-156 | with unique ids, a deleted item is no longer found |
| StoreFacts.DeactivateHidesItem | server/server.js:82-139 | setting status inactive removes the item from GET /api/items but not from GET /api/items/all |
| StoreFacts.SubscribeKeepsEmailsUnique | server/server.js:171-183 | the 409 check keeps subscriber addresses unique |
| StoreFacts.SubscribeTwiceConflicts | server/server.js:164-186 | subscribing one valid address twice: the second attempt answers 409 and changes nothing |
| StoreFacts.DeleteSubscriberKeepsUnique | server/server.js:192-200 | deleting a subscriber keeps addresses and ids unique |
| StoreFacts.GeneratedIdsPathSafe | server/server.js:105 | every id the server generates from the clock is a digit string, so it reaches `req.params.id` unchanged when the client puts it in an item URL |
| StoreFacts.AllPathShadowsItem | server/server.js:87-100 | a `GET` of the item path `all` in any casing answers 200 with every stored item, so it never answers any single item |
| StoreFacts.UnknownIdWritesNothing | server/server.js:119-147 | update and delete of an unknown id answer 404 and write nothing beyond the read's default write |
| StoreFacts.ValidationPrecedesRead | server/server.js:164-171 | the 400 answer does not depend on the file and leaves it untouched |
| StoreFacts.CorruptionMasked | server/server.js:57-69 | a missing or corrupt file answers every request exactly as the default document would |
| StoreFacts.DefaultCredential | server/server.js:45-50 | with no usable file, admin/paradox logs in and a wrong password answers 401 |
| StoreFacts.FailedWriteKeepsData | server/server.js:71-79 | when the write fails, the stored data stays as it was and every mutating handler answers 500 |
| StoreFacts.CorruptFileOverwritten | server/server.js:57-117 | a create on a corrupt file replaces it with the three seeds plus the new item |
| StoreFacts.Lifecycle | server/server.js:82-139 | from an empty store: a created item is listed publicly and in full; once deactivated it is listed only in full |
| StoreFacts.CreateIntoEmpty | server/server.js:102-117 | a create on an empty store leaves exactly the new active record, under the clock's id, and answers 201 with it |
| StoreFacts.DeactivateAlone | server/server.js:119-139 | setting the only record's status to inactive rewrites it in place and answers 200 with it |
| StoreFacts.ListingsServed | server/server.js:57-90 | on a parsed file, both listings answer what their handlers compute on the stored document |
| StoreFacts.ListedAlone | server/server.js:82-90 | a store holding one item lists it in full, and publicly exactly when it is active |
| Legacy.Load | server.js:15-23 | the earlier server reads a missing or unparsable file as an empty document and writes nothing |
| Legacy.IdText | server.js:60 | loose comparison reads a string id as itself and a non-negative whole-number id as exactly its canonical decimal digits |
| Legacy.List | server.js:32-35 | GET /api/items answers 200 with every stored item, unchanged |
| Legacy.Login | server.js:38-46 | 200 with token "admin-access-granted" exactly for admin/paradox; otherwise a bare 401 |
| Legacy.Create | server.js:49-55 | appends `{id: now, ...body}` (a body id wins) and answers 200 with it |
| Legacy.Delete | server.js:58-63 | keeps exactly the items whose id loosely differs, each as often as before and in order, and answers success regardless |
| Legacy.Serve | server.js:29-63 | only create and delete change the file, delete answers 200 or 500 with the write, and login ignores the file |
| Legacy.StrictImpliesLoose | server.js:60 | an id that matches strictly also matches loosely |
| Legacy.ListIgnoresStatus | server.js:32-35 | the earlier GET /api/items is the current GET /api/items/all, and differs from the current public listing once one item is inactive |
| Legacy.FallbacksDiffer | server.js:17-22 | without a usable file the earlier server has no items where the current one has three |
| Legacy.DeleteUnknownId | server.js:58-63 | deleting an id nothing matches: the earlier server answers 200 and rewrites the same items, the current one answers 404 |
| Legacy.DeleteEveryMatch | server.js:60 | with two items sharing an id, the earlier server removes both, the current one only the first |
| Legacy.LoginIgnoresStore | server.js:41 | the earlier login accepts admin/paradox whatever is stored; the current one only when that is the stored pair |
| Legacy.CreatedItemStrangerToCurrentServer | server.js:51 | an item the earlier server creates has a numeric id and no status, so it is loosely found by its digits but is never found by a strict string lookup and is never listed publicly |
| ClientCache.FetchItems | src/context/DataContext.tsx:45-55 | a fetched listing replaces the cached items; a failure keeps them |
| ClientCache.FetchSubscribers | src/context/DataContext.tsx:57-67 | the same for subscribers |
| ClientCache.AddItem | src/context/DataContext.tsx:69-78 | on success the returned record is appended at the end and `true` returned; on failure `false` and the cache unchanged |
| ClientCache.UpdateItem | src/context/DataContext.tsx:80-89 | on success every cached entry with that id becomes the returned record, the others and the length unchanged; on failure nothing changes |
| ClientCache.DeleteItem | src/context/DataContext.tsx:91-100 | on success every entry with that id is dropped, with the rest kept in order; on failure nothing changes |
| ClientCache.Subscribe | src/context/DataContext.tsx:102-113 | on success the subscriber is appended with "Successfully joined the protocol"; a 409 maps to "This frequency is already registered" and every other failure to "Transmission failed. Try again.", with the cache unchanged |
| ClientCache.DeleteSubscriber | src/context/DataContext.tsx:115-124 | on success every subscriber with that id is dropped, the rest kept as often as before and in order; on failure nothing changes |
| ClientCache.DeleteItemIdempotent | src/context/DataContext.tsx:91-100 | deleting the same id twice leaves the cache as deleting it once |
| ClientCache.UpdateThenDelete | src/context/DataContext.tsx:80-100 | deleting an id after updating it (with a record keeping that id) leaves the same cache as deleting it directly |
| Auth.Init | src/context/AuthContext.tsx:15-17 | the session starts authenticated exactly when `paradox_auth` is stored as "true" |
| Auth.Login | src/context/AuthContext.tsx:19-33 | only a reply with `success` logs in: it stores "true" and the token and sets the flag. A refusal or error returns false and changes nothing. Other keys are never touched |
| Auth.Logout | src/context/AuthContext.tsx:35-39 | both keys are removed, the flag is cleared, and other keys are untouched |
| Auth.TransitionsKeepConsistent | src/context/AuthContext.tsx:15-39 | login and logout keep the flag equal to what a reload would read from storage |
| Auth.LogoutIdempotent | src/context/AuthContext.tsx:35-39 | logging out twice is logging out once |
| Auth.ReloadRemembers | src/context/AuthContext.tsx:15-39 | after a successful login a reload starts authenticated; after logout it does not |
| Gallery.Upper | src/pages/Gallery.tsx:25 | `toUpperCase` keeps the length and upper-cases each ASCII letter |
| Gallery.UpperIdempotent | src/pages/Gallery.tsx:25 | upper-casing twice is upper-casing once |
| Gallery.FilteredItems | src/pages/Gallery.tsx:24-26 | `'ALL'` keeps everything; otherwise exactly the items whose upper-cased category equals the upper-cased filter are kept, each as often as before and in order |
| Gallery.FilterTwice | src/components/gallery/Gallery.tsx:24-26 | filtering twice with one filter is filtering once |
| Gallery.AllButtonShowsAll | src/pages/Gallery.tsx:15-26 | the initial filter `'ALL'` shows all three seed items |
| Gallery.ReadButtonSelects | src/pages/Gallery.tsx:18-26 | `READ` selects exactly "The Void" |
| Gallery.ViewButtonSelects | src/pages/Gallery.tsx:18-26 | `VIEW` selects exactly "Celestial Horror" |
| Gallery.AcquireButtonSelects | src/pages/Gallery.tsx:18-26 | `ACQUIRE` selects exactly "Digital Artifact" |
| Gallery.LowerCaseMatches | src/components/gallery/Gallery.tsx:18-26 | the category match ignores case: `view` selects the same item as `VIEW` |
| Gallery.WildcardIsCaseSensitive | src/components/gallery/Gallery.tsx:25 | `'all'` is not the wildcard; it is compared as a category and selects nothing from the seeds |
| ItemDetail.BadgesFollowType | src/pages/ItemDetail.tsx:10-20 | every type has a non-empty label and a class `badge-<type>`, and different types get different ones |
| ItemDetail.KindOf | src/pages/ItemDetail.tsx:108-109 | a record's type indexes the tables exactly when it is one of the three names |
| ItemDetail.Badge | src/pages/ItemDetail.tsx:108-109 | the badge shows the type's label and class for the three type names, and nothing for any other type; for `"__proto__"` the render throws instead (`ItemDetail.Show`) |
| ItemDetail.PurchaseLabel | src/pages/ItemDetail.tsx:122-130 | on a rendered page, a link appears exactly for art or products with a positive number price, captioned "Acquire" for art and "Purchase" for products |
| ItemDetail.PurchaseNeedsPrice | src/pages/ItemDetail.tsx:114-122 | a purchase link appears only beside a displayed price, and never on an article |
| ItemDetail.TypedItemRules | src/pages/ItemDetail.tsx:108-130 | a well-formed item never makes the render throw; its price shows exactly when `price > 0`, and there is a link exactly for a non-article with a positive price |
| ItemDetail.SeedRules | src/pages/ItemDetail.tsx:114-130 | the seed art piece gets "Acquire", the free article neither price nor link, the pendant "Purchase" |
| ItemDetail.AfterFetch | src/pages/ItemDetail.tsx:28-41 | the fetch always ends loading; a reply replaces the item and a failure keeps what was there |
| ItemDetail.Show | src/pages/ItemDetail.tsx:108-118 | a fetched record renders as its detail page, except that, in the model, the render throws exactly when its price is `true` (no `toFixed`) or its type is `"__proto__"` (an object as the label) |
| ItemDetail.Select | src/pages/ItemDetail.tsx:43-118 | loading shows the loading view; otherwise "not found" exactly when there is no item; in the model the render throws exactly when the item's price is `true` or its type is `"__proto__"`; else the detail of that item |
| ItemDetail.FirstFetchDecides | src/pages/ItemDetail.tsx:25-64 | from the initial state, one fetch shows (or fails to render) the item on success and "not found" on any failure |
| ItemDetail.FailedRefetchKeepsStaleItem | src/pages/ItemDetail.tsx:28-41 | a failed fetch for a new id leaves the previous item as the page's content |
| Reconcile.ServeParsed | server/server.js:57-69 | on a parsed file, serving a request is running its handler on the document |
| Reconcile.MountFetchesItemsOnly | src/context/DataContext.tsx:126-128 | the provider starts empty and fetches only the items on mount, so its items match the public listing and its subscribers stay empty; it matches the store exactly when the store has no subscribers |
| Reconcile.FetchBringsInSync | src/context/DataContext.tsx:45-67 | fetching both lists makes the cache show what the server lists, without changing the server |
| Reconcile.AddReconciles | src/context/DataContext.tsx:69-78 | after `addItem` the cache still matches the public listing, whether or not the write succeeded |
| Reconcile.DeleteReconciles | src/context/DataContext.tsx:91-100 | with unique ids, after `deleteItem` the cache still matches the public listing (for an id that passes through the URL unchanged, `Store.PathSafe`) |
| Reconcile.DeleteDivergesOnDuplicateIds | src/context/DataContext.tsx:93-94 | with two listed items sharing an id, the server deletes one and the cache drops both (for an id that passes through the URL unchanged, `Store.PathSafe`) |
| Reconcile.UpdateDivergesOnDuplicateIds | src/context/DataContext.tsx:83-84 | with two listed items sharing an id, the server rewrites the first and the cache replaces both, so they agree only if the merged record equals the second (for an id that passes through the URL unchanged, `Store.PathSafe`) |
| Reconcile.UpdateFirstOfTwo | server/server.js:119-139 | with two items sharing an id, a successful update rewrites only the first, to the merge, and answers it |
| Reconcile.UpdateReconciles | src/context/DataContext.tsx:80-89 | with unique ids, an update that keeps a listed item active leaves the cache matching the public listing (for an id that passes through the URL unchanged, `Store.PathSafe`) |
| Reconcile.ActiveAround | server/server.js:84-132 | replacing one active item by another active one changes the public listing at that item's place only |
| Reconcile.NoMatchAround | src/context/DataContext.tsx:83 | with unique ids, no other listed item carries the updated id |
| Reconcile.DeactivateLeavesCacheStale | src/context/DataContext.tsx:80-89 | deactivating a listed item succeeds, but the cache keeps the inactive record a fresh fetch would leave out (for an id that passes through the URL unchanged, `Store.PathSafe`) |
| Reconcile.SubscribeReconciles | src/context/DataContext.tsx:102-113 | after `subscribe` the cache still matches the server, and the duplicate message appears exactly when the server found the address taken |
| Reconcile.DeleteSubscriberReconciles | src/context/DataContext.tsx:115-124 | with unique subscriber ids, after `deleteSubscriber` the cache still matches the server (for an id that passes through the URL unchanged, `Store.PathSafe`) |
| Reconcile.LoginReconciles | src/context/AuthContext.tsx:19-33 | the session logs in exactly when the server accepts the stored credential, and keeps the server's token |
| Reconcile.LegacyLoginReconciles | src/context/AuthContext.tsx:19-33 | against the earlier server the session logs in exactly with admin/paradox and stores "admin-access-granted" |
| Reconcile.ItemPageShowsLookup | src/pages/ItemDetail.tsx:28-64 | for an id other than `all` in any casing, the item page shows "not found" exactly when the server has no item with that id, and otherwise renders the first such item; for `all` it renders an empty detail page from the full listing (for an id that passes through the URL unchanged, `Store.PathSafe`) |
| Reconcile.InactiveItemStillViewable | src/pages/ItemDetail.tsx:28-64 | an item hidden from the public listing is still rendered on its own page, as any other item is, unless its id is `all` in some casing, whose page shows the empty listing detail instead (for an id that passes through the URL unchanged, `Store.PathSafe`) |

## Left out

- Express wiring is left out as framework plumbing. This covers CORS, JSON body parsing, static and single-page serving, `/api/health` and `app.listen`.
- Rendering is left out as presentation. This covers React rendering, animation and styling, the home, admin and navigation components, `FilterButtons`' animation table, `ItemCard`, the terminal timers and `ItemManager`. Only the button labels of `FilterButtons` are used, as the filters `Gallery` is applied to.
- JavaScript object aliasing is not modelled. `readData` returns the shared `DEFAULT_DATA` object, so a later push on a fallback read mutates the fallback itself. The model has value semantics.
- Concurrency is not modelled: two requests interleaving their read-modify-write on the same file can lose an update, and the model serves one request at a time.
- A failed `writeFileSync` is modelled as leaving the file as it was. A partially written file is not modelled.
- `readData` uses the same `writeOk` flag for its default-file write on a missing file and for the handler's own write. Distinct outcomes for the two writes within one request are not modelled.
- Clock and locale formatting are not modelled. `Date.now()` and `toISOString()` are parameters, and `toLocaleDateString()` and the digits `toFixed(2)` prints for a number price are display-only. One of the ways `toFixed` fails, on a `true` price, is modelled.
- The `loading` flag of `DataContext` is left out: it is display state set around each fetch.
- `DataContext`'s `error` state is left out: it is never set.
- Request bodies are JSON objects whose values are strings, numbers, booleans or null. Nested objects and arrays in a body are not modelled.
- The subscribe and login handlers take `email`, `username` and `password` as optional strings. A non-string JSON value in those fields (for which `includes` would throw, or `===` would simply fail) is not modelled.
- Legacy.IdText: the earlier server's loose `!=` is modelled only for string ids and non-negative whole-number ids. The ids it generates are always of those kinds. Loose comparison of route text with other numbers (`"07"` against 7, fractions, exponents) and with booleans or null is not modelled; such ids are treated as never equal.
- ItemDetail.Show, ItemDetail.Select, ItemDetail.PriceThrows: a string price that converts to a number above 0 (such as `"5"`) also passes `price > 0` and makes the render throw, because strings have no `toFixed`. JavaScript's text-to-number conversion is not modelled, so such a record renders as a detail page without a price line. Numbers, `true`, `false`, null and a missing price behave as in JavaScript.
- A data file that parses as JSON but is not a document with `items`, `subscribers` and `admin` is not modelled. Examples are `null`, `[]`, `{}` or a document without `admin`. The server returns it from `readData` (server/server.js:64). A handler that reads a field of a missing member (`data.items.filter`, `data.admin.username`) then throws, and Express answers 500. `GET /api/items/all` and `GET /api/subscribers` on `{}` or `[]` instead answer 200 with an empty body, because `res.json(undefined)` sends nothing. The file model has only missing, unparsable and well-formed documents.
- The earlier server has the same gap: a file that parses but has no `items` or `subscribers` array reaches its handlers (server.js:15-23), which then throw or answer with an empty body. `Legacy.Load` covers only missing, unparsable and well-formed files.
- Decimal.Text: it matches `Number.prototype.toString` only for whole numbers up to 2^53 (`Number.MAX_SAFE_INTEGER`). Above that a double prints the shortest digits that read back as the same value (`(2**55).toString()` is `"36028797018963970"`), and from 10^21 up it prints exponent form such as `"1e+21"`. Clock readings in milliseconds stay far below 2^53.
- JSON numbers are modelled as exact reals, not as IEEE doubles. Rounding on parse is not modelled: `JSON.parse` reads `1e-400` as `0`, so `price > 0` is false in JavaScript, while `ItemDetail.PricePositive` holds for that value in the model. Every comparison the model makes is exact.
- Reconcile.DeleteReconciles, Reconcile.DeleteDivergesOnDuplicateIds, Reconcile.UpdateDivergesOnDuplicateIds, Reconcile.UpdateReconciles, Reconcile.DeactivateLeavesCacheStale, Reconcile.DeleteSubscriberReconciles, Reconcile.ItemPageShowsLookup, Reconcile.InactiveItemStillViewable: these require `Store.PathSafe(id)`. The client splices the id into the URL without encoding it, so an id containing `/`, `\`, `?`, `#` or `%`, an empty id, or a dot segment reaches the server as a different id or another route. Express cuts the path at `?` and `#`, a `/` leaves the `:id` route, and `%` sequences are decoded or rejected with 400. URL parsing and percent-decoding are not modelled. Generated ids are always path-safe (`StoreFacts.GeneratedIdsPathSafe`); a body-supplied id need not be.
- ItemDetail.Badge: a type naming another inherited `Object.prototype` member (`constructor`, `toString` and the like) looks up a function. React renders nothing for a function child, as modelled, but the class attribute receives the function's source text, while the model gives no badge at all.
- Gallery.Upper: `toUpperCase` is modelled on ASCII letters only; other characters are left unchanged.
- The `id` route parameter of `ItemDetail` is modelled as the fetch it triggers. Re-running the effect when it changes is modelled as a second `AfterFetch` on the current page.

=== FILE: auth.dfy ===
/** The client's login session (src/context/AuthContext.tsx): one flag and
    two browser-storage keys, changed by a successful login, a failed one,
    and logout. */
module Auth {
  import opened Seqs
  import opened Data

  const AuthKey := "paradox_auth"
  const TokenKey := "paradox_token"

  /** `isAuthenticated` and the browser's `localStorage`. */
  datatype Session = Session(authenticated: bool, storage: map<string, string>)

  /** The flag agrees with what storage says. */
  predicate Consistent(st: Session)
  {
    st.authenticated <==> AuthKey in st.storage && st.storage[AuthKey] == "true"
  }

  /** The provider's initial state, read from storage. */
  function Init(storage: map<string, string>): (st: Session)
    ensures st.storage == storage
    ensures Consistent(st)
  {
    Session(AuthKey in storage && storage[AuthKey] == "true", storage)
  }

  /** `response.data` of POST /api/login: its `success` flag and its `token`, if any. */
  datatype LoginData = LoginData(success: bool, token: Option<string>)

  /** `localStorage.setItem` stores the text of its value, so an absent token is stored as "undefined". */
  function StoredText(v: Option<string>): string
  {
    match v
    case Some(t) => t
    case None => "undefined"
  }

  datatype Step = Step(result: bool, session: Session)

  /** `login`: only a reply whose `success` is set changes anything. */
  function Login(st: Session, o: Http<LoginData>): (r: Step)
    ensures r.result <==> o.Ok? && o.data.success
    ensures !r.result ==> r.session == st
    ensures r.result ==>
      && r.session.authenticated
      && AuthKey in r.session.storage && r.session.storage[AuthKey] == "true"
      && TokenKey in r.session.storage && r.session.storage[TokenKey] == StoredText(o.data.token)
    ensures forall k :: k != AuthKey && k != TokenKey ==>
      (k in r.session.storage <==> k in st.storage)
      && (k in st.storage ==> r.session.storage[k] == st.storage[k])
  {
    if o.Ok? && o.data.success then
      Step(true, Session(true, st.storage[AuthKey := "true"][TokenKey := StoredText(o.data.token)]))
    else Step(false, st)
  }

  /** `logout`: both keys removed, the flag cleared. */
  function Logout(st: Session): (r: Session)
    ensures !r.authenticated
    ensures AuthKey !in r.storage && TokenKey !in r.storage
    ensures forall k :: k != AuthKey && k != TokenKey ==>
      (k in r.storage <==> k in st.storage)
      && (k in st.storage ==> r.storage[k] == st.storage[k])
  {
    Session(false, st.storage - {AuthKey, TokenKey})
  }

  /** Every transition keeps the flag in step with storage. */
  lemma TransitionsKeepConsistent(st: Session, o: Http<LoginData>)
    requires Consistent(st)
    ensures Consistent(Login(st, o).session)
    ensures Consistent(Logout(st))
  {
  }

  lemma LogoutIdempotent(st: Session)
    ensures Logout(Logout(st)) == Logout(st)
  {
  }

  /** A reload after a successful login starts authenticated; a reload after logout does not. */
  lemma ReloadRemembers(st: Session, o: Http<LoginData>)
    ensures Login(st, o).result ==> Init(Login(st, o).session.storage).authenticated
    ensures !Init(Logout(st).storage).authenticated
  {
  }
}

=== FILE: client_cache.dfy ===
/** The client's cached copies of the items and subscribers
    (src/context/DataContext.tsx). Each call sends one request and, only when
    it succeeds, updates the cache locally: append, replace by id, or remove
    by id. A failed request leaves the cache as it was. */
module ClientCache {
  import opened Seqs
  import opened Data

  datatype Cache = Cache(items: seq<Record>, subscribers: seq<Subscriber>)

  /** The provider's initial state: both arrays empty. */
  const Initial := Cache([], [])

  /** What a call returns to its caller together with the cache after it. */
  datatype Outcome<R> = Outcome(result: R, cache: Cache)

  /** `i => i.id !== id`. */
  function OtherId(id: string): Record -> bool
  {
    (r: Record) => !HasId(r, id)
  }

  function OtherSubscriber(id: string): Subscriber -> bool
  {
    (s: Subscriber) => s.id != id
  }

  /** `fetchItems`: the listing replaces the cached items; a failure keeps them. */
  function FetchItems(c: Cache, o: Http<seq<Record>>): (r: Cache)
    ensures o.Ok? ==> r.items == o.data && r.subscribers == c.subscribers
    ensures o.Failed? ==> r == c
  {
    if o.Ok? then c.(items := o.data) else c
  }

  /** `fetchSubscribers`. */
  function FetchSubscribers(c: Cache, o: Http<seq<Subscriber>>): (r: Cache)
    ensures o.Ok? ==> r.subscribers == o.data && r.items == c.items
    ensures o.Failed? ==> r == c
  {
    if o.Ok? then c.(subscribers := o.data) else c
  }

  /** `addItem`: append the record the server returned. */
  function AddItem(c: Cache, o: Http<Record>): (r: Outcome<bool>)
    ensures r.result <==> o.Ok?
    ensures o.Failed? ==> r.cache == c
    ensures o.Ok? ==>
      && |r.cache.items| == |c.items| + 1
      && r.cache.items[..|c.items|] == c.items
      && r.cache.items[|c.items|] == o.data
      && r.cache.subscribers == c.subscribers
  {
    match o
    case Ok(rec) => Outcome(true, c.(items := c.items + [rec]))
    case Failed(_) => Outcome(false, c)
  }

  /** `updateItem`: every cached entry with that id becomes the returned record. */
  function UpdateItem(c: Cache, id: string, o: Http<Record>): (r: Outcome<bool>)
    ensures r.result <==> o.Ok?
    ensures o.Failed? ==> r.cache == c
    ensures o.Ok? ==>
      && |r.cache.items| == |c.items|
      && (forall j :: 0 <= j < |c.items| ==> r.cache.items[j] == if HasId(c.items[j], id) then o.data else c.items[j])
      && r.cache.subscribers == c.subscribers
  {
    match o
    case Ok(rec) => Outcome(true, c.(items := ReplaceWhere(IdMatch(id), c.items, rec)))
    case Failed(_) => Outcome(false, c)
  }

  /** `deleteItem`: drop every cached entry with that id, keeping the others in order. */
  function DeleteItem(c: Cache, id: string, o: Http<()>): (r: Outcome<bool>)
    ensures r.result <==> o.Ok?
    ensures o.Failed? ==> r.cache == c
    ensures o.Ok? ==>
      && (forall x :: x in r.cache.items <==> x in c.items && !HasId(x, id))
      && (forall x :: multiset(r.cache.items)[x] == if HasId(x, id) then 0 else multiset(c.items)[x])
      && IsSubsequence(r.cache.items, c.items)
      && r.cache.subscribers == c.subscribers
  {
    match o
    case Ok(_) =>
      FilterIsSubsequence(OtherId(id), c.items);
      Outcome(true, c.(items := Filter(OtherId(id), c.items)))
    case Failed(_) => Outcome(false, c)
  }

  datatype Joined = Joined(success: bool, message: string)

  const Welcome := "Successfully joined the protocol"
  const AlreadyRegistered := "This frequency is already registered"
  const TransmissionFailed := "Transmission failed. Try again."

  /** `subscribe`: append the returned subscriber, or explain the failure (409 is a duplicate). */
  function Subscribe(c: Cache, o: Http<Subscriber>): (r: Outcome<Joined>)
    ensures r.result.success <==> o.Ok?
    ensures o.Ok? ==> r.cache == c.(subscribers := c.subscribers + [o.data]) && r.result.message == Welcome
    ensures o.Failed? ==> r.cache == c
    ensures o.Failed? ==> (r.result.message == AlreadyRegistered <==> o.status == Some(409))
    ensures o.Failed? && o.status != Some(409) ==> r.result.message == TransmissionFailed
  {
    match o
    case Ok(sub) => Outcome(Joined(true, Welcome), c.(subscribers := c.subscribers + [sub]))
    case Failed(status) =>
      if status == Some(409) then Outcome(Joined(false, AlreadyRegistered), c)
      else Outcome(Joined(false, TransmissionFailed), c)
  }

  /** `deleteSubscriber`: drop every cached subscriber with that id. */
  function DeleteSubscriber(c: Cache, id: string, o: Http<()>): (r: Outcome<bool>)
    ensures r.result <==> o.Ok?
    ensures o.Failed? ==> r.cache == c
    ensures o.Ok? ==>
      && (forall x :: x in r.cache.subscribers <==> x in c.subscribers && x.id != id)
      && (forall x :: multiset(r.cache.subscribers)[x] == if x.id == id then 0 else multiset(c.subscribers)[x])
      && IsSubsequence(r.cache.subscribers, c.subscribers)
      && r.cache.items == c.items
  {
    match o
    case Ok(_) =>
      FilterIsSubsequence(OtherSubscriber(id), c.subscribers);
      Outcome(true, c.(subscribers := Filter(OtherSubscriber(id), c.subscribers)))
    case Failed(_) => Outcome(false, c)
  }

  /** Removing by id twice is removing once: a repeated successful delete changes nothing more. */
  lemma DeleteItemIdempotent(c: Cache, id: string)
    ensures var once := DeleteItem(c, id, Ok(())).cache;
      DeleteItem(once, id, Ok(())).cache == once
  {
    FilterIdempotent(OtherId(id), c.items);
  }

  /** Deleting an id after updating it removes the same entries as deleting it straight away,
      as long as the returned record keeps that id. */
  lemma UpdateThenDelete(c: Cache, id: string, rec: Record)
    requires HasId(rec, id)
    ensures var u := UpdateItem(c, id, Ok(rec)).cache;
      DeleteItem(u, id, Ok(())).cache == DeleteItem(c, id, Ok(())).cache
  {
    FilterReplaced(IdMatch(id), OtherId(id), c.items, rec);
  }
}

=== FILE: data.dfy ===
/** The entities both servers and the client exchange: JSON records for
    items, the typed `Item` and `Subscriber` shapes the client declares, the
    stored snapshot, HTTP responses, and the effect a handler has on the
    backing file. */
module Data {
  import opened Seqs

  /** The JSON scalars a stored record holds. */
  datatype Json = JStr(str: string) | JNum(num: real) | JBool(truth: bool) | JNull

  /** A stored item as the servers see it: a JSON object, so `{...a, ...b}` is `a + b`. */
  type Record = map<string, Json>

  const IdKey := "id"
  const TitleKey := "title"
  const TypeKey := "type"
  const ContentKey := "content"
  const PriceKey := "price"
  const ImageKey := "image"
  const CreatedAtKey := "createdAt"
  const StatusKey := "status"

  const ItemKeys: set<string> :=
    {IdKey, TitleKey, TypeKey, ContentKey, PriceKey, ImageKey, CreatedAtKey, StatusKey}

  /** The strict comparison `r.id === id` used by every server lookup and by the client cache. */
  predicate HasId(r: Record, id: string)
  {
    IdKey in r && r[IdKey] == JStr(id)
  }

  /** `i => i.id === id`, the predicate every lookup by id uses. */
  function IdMatch(id: string): Record -> bool
  {
    (r: Record) => HasId(r, id)
  }

  /** `s => s.id === id` for subscribers. */
  function SubscriberIdMatch(id: string): Subscriber -> bool
  {
    (s: Subscriber) => s.id == id
  }

  /** `item.status === 'active'`. */
  predicate IsActive(r: Record)
  {
    StatusKey in r && r[StatusKey] == JStr("active")
  }

  datatype ItemType = Art | Article | Product
  datatype Status = Active | Inactive

  /** The client's `Item` interface; `type` is spelled `kind` here. */
  datatype Item = Item(
    id: string, title: string, kind: ItemType, content: string,
    price: real, image: string, createdAt: string, status: Status)

  datatype Subscriber = Subscriber(id: string, email: string, subscribedAt: string)

  datatype Credential = Credential(username: string, password: string)

  /** The whole backing document of the current server. */
  datatype Snapshot = Snapshot(items: seq<Record>, subscribers: seq<Subscriber>, admin: Credential)

  /** What reading the backing file yields: nothing, unparsable text, or a document. */
  datatype FileState<D> = Missing | Corrupt | Parsed(data: D)

  function TypeName(t: ItemType): string
  {
    match t
    case Art => "art"
    case Article => "article"
    case Product => "product"
  }

  function TypeNamed(s: string): (t: Option<ItemType>)
    ensures t.Some? ==> TypeName(t.value) == s
    ensures forall k :: TypeName(k) == s ==> t == Some(k)
  {
    if s == "art" then Some(Art)
    else if s == "article" then Some(Article)
    else if s == "product" then Some(Product)
    else None
  }

  function StatusName(s: Status): string
  {
    if s == Active then "active" else "inactive"
  }

  function StatusNamed(s: string): (t: Option<Status>)
    ensures t.Some? ==> StatusName(t.value) == s
    ensures forall k :: StatusName(k) == s ==> t == Some(k)
  {
    if s == "active" then Some(Active) else if s == "inactive" then Some(Inactive) else None
  }

  /** The JSON object a typed item is stored as. */
  function Encode(it: Item): (r: Record)
    ensures r.Keys == ItemKeys
    ensures HasId(r, it.id)
    ensures IsActive(r) <==> it.status == Active
  {
    map[IdKey := JStr(it.id), TitleKey := JStr(it.title), TypeKey := JStr(TypeName(it.kind)),
        ContentKey := JStr(it.content), PriceKey := JNum(it.price), ImageKey := JStr(it.image),
        CreatedAtKey := JStr(it.createdAt), StatusKey := JStr(StatusName(it.status))]
  }

  function Str(r: Record, k: string): Option<string>
  {
    if k in r && r[k].JStr? then Some(r[k].str) else None
  }

  /** Reads a record as the client's `Item`, when every field has the declared JSON kind. */
  function Decode(r: Record): (it: Option<Item>)
    ensures it.Some? ==> HasId(r, it.value.id) && (IsActive(r) <==> it.value.status == Active)
  {
    if Str(r, IdKey).Some? && Str(r, TitleKey).Some? && Str(r, ContentKey).Some?
       && Str(r, ImageKey).Some? && Str(r, CreatedAtKey).Some?
       && Str(r, TypeKey).Some? && TypeNamed(Str(r, TypeKey).value).Some?
       && Str(r, StatusKey).Some? && StatusNamed(Str(r, StatusKey).value).Some?
       && PriceKey in r && r[PriceKey].JNum?
    then Some(Item(Str(r, IdKey).value, Str(r, TitleKey).value, TypeNamed(Str(r, TypeKey).value).value,
                   Str(r, ContentKey).value, r[PriceKey].num, Str(r, ImageKey).value,
                   Str(r, CreatedAtKey).value, StatusNamed(Str(r, StatusKey).value).value))
    else None
  }

  lemma DecodeEncode(it: Item)
    ensures Decode(Encode(it)) == Some(it)
  {
  }

  /** A decodable record is its item's encoding plus whatever keys the interface does not declare. */
  lemma EncodeDecode(r: Record)
    requires Decode(r).Some?
    ensures forall k :: k in ItemKeys ==> k in r && Encode(Decode(r).value)[k] == r[k]
  {
  }

  /** A server reply. `status` is the HTTP status code, `body` the JSON sent. */
  datatype Body =
    | Items(items: seq<Record>)
    | One(item: Record)
    | Subscribers(subscribers: seq<Subscriber>)
    | Subscribed(message: string, subscriber: Subscriber)
    | Message(message: string)
    | Error(error: string)
    | LoginOk(token: string, note: Option<string>)
    | LoginFailed(reason: Option<string>)
    | Acknowledged
    | ServerError

  datatype Response = Response(status: int, body: Body)

  predicate IsSuccess(r: Response)
  {
    200 <= r.status < 300
  }

  /** What a handler does once the store is read: answer at once, or write `next`
      and answer `saved` if the write succeeds and `failed` otherwise. */
  datatype Effect<S> = Respond(response: Response) | Persist(next: S, saved: Response, failed: Response)

  datatype Reply<S> = Reply(response: Response, state: S)

  /** Carries out an effect against the backing file; `writeOk` is the file system's verdict on the write. */
  function Apply<S>(file: FileState<S>, e: Effect<S>, writeOk: bool): (r: Reply<FileState<S>>)
    ensures r.state != file ==> e.Persist? && writeOk && r.state == Parsed(e.next)
    ensures e.Persist? && writeOk ==> r == Reply(e.saved, Parsed(e.next))
    ensures e.Persist? && !writeOk ==> r == Reply(e.failed, file)
    ensures e.Respond? ==> r == Reply(e.response, file)
  {
    match e
    case Respond(resp) => Reply(resp, file)
    case Persist(next, saved, failed) => if writeOk then Reply(saved, Parsed(next)) else Reply(failed, file)
  }

  /** What the client's HTTP library hands back: the payload of a 2xx reply, or a
      failure with the status code when there was a reply at all. */
  datatype Http<T> = Ok(data: T) | Failed(status: Option<int>)
}

=== FILE: decimal.dfy ===
/** Decimal text of a natural number, as JavaScript's `Number.prototype.toString()`
    writes a non-negative integer such as `Date.now()`. Both servers derive
    record ids and login tokens from it. */
module Decimal {

  predicate IsDigit(c: char)
  {
    '0' <= c <= '9'
  }

  function DigitChar(d: nat): (c: char)
    requires d < 10
    ensures IsDigit(c)
  {
    ['0', '1', '2', '3', '4', '5', '6', '7', '8', '9'][d]
  }

  function DigitValue(c: char): (d: nat)
    requires IsDigit(c)
    ensures d < 10 && DigitChar(d) == c
  {
    (c as int - '0' as int) as nat
  }

  predicate AllDigits(s: string)
  {
    forall i :: 0 <= i < |s| ==> IsDigit(s[i])
  }

  /** The shortest decimal text of `n`: non-empty, digits only, no leading zero. */
  function Text(n: nat): (s: string)
    ensures |s| > 0 && AllDigits(s)
    ensures s[0] == '0' ==> n == 0 && |s| == 1
    decreases n
  {
    if n < 10 then [DigitChar(n)] else Text(n / 10) + [DigitChar(n % 10)]
  }

  /** Reads a digit string back as a number (the inverse of `Text`). */
  function Parse(s: string): nat
    requires AllDigits(s)
    decreases |s|
  {
    if |s| == 0 then 0 else Parse(s[..|s| - 1]) * 10 + DigitValue(s[|s| - 1])
  }

  lemma {:induction false} ParseText(n: nat)
    ensures Parse(Text(n)) == n
    decreases n
  {
    var s := Text(n);
    if n >= 10 {
      ParseText(n / 10);
      assert s[..|s| - 1] == Text(n / 10);
      assert DigitValue(s[|s| - 1]) == n % 10;
    } else {
      assert s[..0] == [];
      assert DigitValue(s[0]) == n;
    }
  }

  /** Distinct clock readings give distinct ids. */
  lemma TextInjective(m: nat, n: nat)
    ensures Text(m) == Text(n) ==> m == n
  {
    ParseText(m);
    ParseText(n);
  }
}

=== FILE: gallery.dfy ===
/** The gallery's category filter. It appears twice, with the same data and
    the same callback: in src/pages/Gallery.tsx and in
    src/components/gallery/Gallery.tsx. An item is shown under the wildcard
    `'ALL'` or when its category matches the filter case-insensitively. */
module Gallery {
  import opened Seqs

  datatype GalleryItem = GalleryItem(id: int, title: string, category: string, img: string)

  /** `toUpperCase` on ASCII letters; other characters are left alone. */
  function UpperChar(c: char): (u: char)
    ensures 'a' <= c <= 'z' ==> u as int == c as int - 32
    ensures !('a' <= c <= 'z') ==> u == c
  {
    if 'a' <= c <= 'z' then (c as int - 32) as char else c
  }

  function Upper(s: string): (u: string)
    ensures |u| == |s|
    ensures forall i :: 0 <= i < |s| ==> u[i] == UpperChar(s[i])
  {
    seq(|s|, i requires 0 <= i < |s| => UpperChar(s[i]))
  }

  lemma UpperIdempotent(s: string)
    ensures Upper(Upper(s)) == Upper(s)
  {
  }

  const Wildcard := "ALL"

  /** The `filter` callback: the exact wildcard, or equal upper-cased category and filter. */
  predicate Shown(filter: string, item: GalleryItem)
  {
    filter == Wildcard || Upper(item.category) == Upper(filter)
  }

  function ShownBy(filter: string): GalleryItem -> bool
  {
    (item: GalleryItem) => Shown(filter, item)
  }

  /** `filteredItems`. */
  function FilteredItems(items: seq<GalleryItem>, filter: string): (r: seq<GalleryItem>)
    ensures filter == Wildcard ==> r == items
    ensures forall x :: x in r <==> x in items && (filter == Wildcard || Upper(x.category) == Upper(filter))
    ensures forall x :: multiset(r)[x] == if filter == Wildcard || Upper(x.category) == Upper(filter) then multiset(items)[x] else 0
    ensures IsSubsequence(r, items)
  {
    FilterIsSubsequence(ShownBy(filter), items);
    var r := Filter(ShownBy(filter), items);
    assert filter == Wildcard ==> r == items by {
      if filter == Wildcard { FilterAll(ShownBy(filter), items); }
    }
    r
  }

  lemma FilterTwice(items: seq<GalleryItem>, filter: string)
    ensures FilteredItems(FilteredItems(items, filter), filter) == FilteredItems(items, filter)
  {
    FilterIdempotent(ShownBy(filter), items);
  }

  /** `galleryData`. */
  const GalleryData := [
    GalleryItem(1, "Celestial Horror", "VIEW", "/121212.png"),
    GalleryItem(2, "The Void", "READ", "/212121.png"),
    GalleryItem(3, "Digital Artifact", "ACQUIRE", "/121212.png")
  ]

  /** The labels of the filter buttons; the first is the initial filter. */
  const Buttons := ["ALL", "READ", "VIEW", "ACQUIRE"]

  lemma UpperOfUpper(w: string)
    requires forall i :: 0 <= i < |w| ==> !('a' <= w[i] <= 'z')
    ensures Upper(w) == w
  {
  }

  /** The filter over the seed data, one item at a time. */
  lemma Pick(filter: string)
    ensures var p := ShownBy(filter);
      FilteredItems(GalleryData, filter) ==
        (if p(GalleryData[0]) then [GalleryData[0]] else [])
        + ((if p(GalleryData[1]) then [GalleryData[1]] else [])
           + (if p(GalleryData[2]) then [GalleryData[2]] else []))
  {
    var p := ShownBy(filter);
    Filter3(p, GalleryData[0], GalleryData[1], GalleryData[2]);
    Filter1(p, GalleryData[0]);
    Filter1(p, GalleryData[1]);
    Filter1(p, GalleryData[2]);
  }

  /** The seed categories are already upper case. */
  lemma SeedCategoriesUpper()
    ensures Upper("READ") == "READ" && Upper("VIEW") == "VIEW" && Upper("ACQUIRE") == "ACQUIRE"
  {
    UpperOfUpper("READ");
    UpperOfUpper("VIEW");
    UpperOfUpper("ACQUIRE");
  }

  /** The initial filter shows every item. */
  lemma AllButtonShowsAll()
    ensures FilteredItems(GalleryData, Buttons[0]) == GalleryData
  {
  }

  /** Each category button picks exactly its one item. */
  lemma ReadButtonSelects()
    ensures FilteredItems(GalleryData, Buttons[1]) == [GalleryData[1]]
  {
    SeedCategoriesUpper();
    Pick("READ");
  }

  lemma ViewButtonSelects()
    ensures FilteredItems(GalleryData, Buttons[2]) == [GalleryData[0]]
  {
    SeedCategoriesUpper();
    Pick("VIEW");
  }

  lemma AcquireButtonSelects()
    ensures FilteredItems(GalleryData, Buttons[3]) == [GalleryData[2]]
  {
    SeedCategoriesUpper();
    Pick("ACQUIRE");
  }

  /** The match ignores case: typing the category in lower case picks the same item. */
  lemma LowerCaseMatches()
    ensures FilteredItems(GalleryData, "view") == [GalleryData[0]]
  {
    var u := Upper("view");
    assert u[0] == 'V' && u[1] == 'I' && u[2] == 'E' && u[3] == 'W';
    assert u == "VIEW";
    SeedCategoriesUpper();
    Pick("view");
  }

  /** The wildcard comparison is case-sensitive: `'all'` is compared as a category, and no seed
      item has the category "ALL", so it shows nothing. */
  lemma WildcardIsCaseSensitive()
    ensures FilteredItems(GalleryData, "all") == []
  {
    var u := Upper("all");
    assert u[0] == 'A' && u[1] == 'L' && u[2] == 'L';
    assert u == "ALL";
    SeedCategoriesUpper();
    Pick("all");
  }
}

=== FILE: item_detail.dfy ===
/** The item page (src/pages/ItemDetail.tsx): what it shows while the item is
    being fetched, when there is none, and which badge, price and purchase
    link a fetched item gets. The page works on the record the server sent,
    so fields are read from the JSON object. */
module ItemDetail {
  import opened Seqs
  import opened Data
  import Store

  /** `typeLabels`. */
  function TypeLabel(t: ItemType): string
  {
    match t
    case Art => "DIGITAL ART"
    case Article => "ANCIENT TEXT"
    case Product => "ARTIFACT"
  }

  /** `typeClasses`. */
  function TypeClass(t: ItemType): string
  {
    match t
    case Art => "badge-art"
    case Article => "badge-article"
    case Product => "badge-product"
  }

  /** Each badge class is named after its type, and different types get different labels. */
  lemma BadgesFollowType(t: ItemType, u: ItemType)
    ensures TypeClass(t) == "badge-" + TypeName(t)
    ensures |TypeLabel(t)| > 0
    ensures t != u ==> TypeLabel(t) != TypeLabel(u) && TypeClass(t) != TypeClass(u)
  {
  }

  /** The record's `type` as an item type, when it is one of the three names. */
  function KindOf(r: Record): (k: Option<ItemType>)
    ensures k.Some? <==> TypeKey in r && r[TypeKey].JStr? && TypeNamed(r[TypeKey].str).Some?
    ensures k.Some? ==> r[TypeKey] == JStr(TypeName(k.value))
  {
    match Str(r, TypeKey)
    case None => None
    case Some(s) => TypeNamed(s)
  }

  /** The badge: a type outside the three names indexes the tables to nothing, except the
      inherited `__proto__` key, whose render throws (`TypeThrows`). */
  function Badge(r: Record): (b: Option<(string, string)>)
    ensures b.Some? <==> KindOf(r).Some?
    ensures b.Some? ==> b.value == (TypeLabel(KindOf(r).value), TypeClass(KindOf(r).value))
  {
    match KindOf(r)
    case None => None
    case Some(t) => Some((TypeLabel(t), TypeClass(t)))
  }

  /** The price line shows when `item.price > 0` holds for a number price. */
  predicate PricePositive(r: Record)
  {
    PriceKey in r && r[PriceKey].JNum? && r[PriceKey].num > 0.0
  }

  /** `true > 0` also holds, but `true` has no `toFixed`, so rendering the price line throws. */
  predicate PriceThrows(r: Record)
  {
    PriceKey in r && r[PriceKey] == JBool(true)
  }

  /** `typeLabels['__proto__']` is `Object.prototype`, an object, and React throws on an object child. */
  predicate TypeThrows(r: Record)
  {
    TypeKey in r && r[TypeKey] == JStr("__proto__")
  }

  /** The two ways a fetched record makes the page's render throw. */
  predicate RenderThrows(r: Record)
  {
    PriceThrows(r) || TypeThrows(r)
  }

  /** The purchase link and its caption: art and products with a positive price. */
  function PurchaseLabel(r: Record): (l: Option<string>)
    ensures l.Some? <==> PricePositive(r) && (KindOf(r) == Some(Art) || KindOf(r) == Some(Product))
    ensures l == Some("Acquire") <==> PricePositive(r) && KindOf(r) == Some(Art)
    ensures l == Some("Purchase") <==> PricePositive(r) && KindOf(r) == Some(Product)
  {
    if PricePositive(r) && KindOf(r) == Some(Art) then Some("Acquire")
    else if PricePositive(r) && KindOf(r) == Some(Product) then Some("Purchase")
    else None
  }

  /** A purchase link appears only next to a displayed price, and never on an article. */
  lemma PurchaseNeedsPrice(r: Record)
    ensures PurchaseLabel(r).Some? ==> PricePositive(r)
    ensures KindOf(r) == Some(Article) ==> PurchaseLabel(r).None?
  {
  }

  /** For a well-formed item the rules read off its type and price, and rendering never throws. */
  lemma TypedItemRules(it: Item)
    ensures !RenderThrows(Encode(it))
    ensures PricePositive(Encode(it)) <==> it.price > 0.0
    ensures PurchaseLabel(Encode(it)).Some? <==> it.kind != Article && it.price > 0.0
    ensures Badge(Encode(it)) == Some((TypeLabel(it.kind), TypeClass(it.kind)))
  {
  }

  /** The three seeds: the art piece is acquired, the free article has neither price nor link,
      the pendant is purchased. */
  lemma SeedRules()
    ensures PurchaseLabel(Encode(Store.Seed1)) == Some("Acquire")
    ensures !PricePositive(Encode(Store.Seed2)) && PurchaseLabel(Encode(Store.Seed2)).None?
    ensures PurchaseLabel(Encode(Store.Seed3)) == Some("Purchase")
  {
    TypedItemRules(Store.Seed1);
    TypedItemRules(Store.Seed2);
    TypedItemRules(Store.Seed3);
  }

  /** `loading` and `item`. */
  datatype Page = Page(loading: bool, item: Option<Record>)

  const Initial := Page(true, None)

  /** The fetch effect: a reply replaces the item; a failure keeps whatever was there;
      either way loading ends. */
  function AfterFetch(p: Page, o: Http<Record>): (q: Page)
    ensures !q.loading
    ensures o.Ok? ==> q.item == Some(o.data)
    ensures o.Failed? ==> q.item == p.item
  {
    match o
    case Ok(rec) => Page(false, Some(rec))
    case Failed(_) => Page(false, p.item)
  }

  /** The page's renderings; `Crashed` is a render that throws, which leaves nothing on screen. */
  datatype View = Loading | NotFound | Detail(item: Record) | Crashed

  /** What a fetched record renders as. */
  function Show(r: Record): (v: View)
    ensures v == Crashed <==> PriceThrows(r) || TypeThrows(r)
    ensures v != Crashed ==> v == Detail(r)
  {
    if RenderThrows(r) then Crashed else Detail(r)
  }

  /** Which rendering the page returns. */
  function Select(p: Page): (v: View)
    ensures v == Loading <==> p.loading
    ensures v == NotFound <==> !p.loading && p.item.None?
    ensures v == Crashed <==> !p.loading && p.item.Some? && (PriceThrows(p.item.value) || TypeThrows(p.item.value))
    ensures v.Detail? ==> p.item == Some(v.item)
  {
    if p.loading then Loading
    else match p.item
      case None => NotFound
      case Some(r) => Show(r)
  }

  /** From the initial page one fetch decides: the item on success, "not found" on any failure. */
  lemma FirstFetchDecides(o: Http<Record>)
    ensures Select(Initial) == Loading
    ensures Select(AfterFetch(Initial, o)) == if o.Ok? then Show(o.data) else NotFound
  {
  }

  /** Loading is not reset when the route's id changes, so a failed fetch for a second id
      leaves the first item on screen. */
  lemma FailedRefetchKeepsStaleItem(first: Record, status: Option<int>)
    ensures Select(AfterFetch(AfterFetch(Initial, Ok(first)), Failed(status))) == Show(first)
  {
  }
}

=== FILE: legacy.dfy ===
/** The earlier server (server.js at the repository root): no status filter,
    numeric ids that a body may override, deletion of every loosely matching
    item with unconditional success, and a credential fixed in code. */
module Legacy {
  import opened Seqs
  import opened Data
  import Decimal
  import Store

  /** Its backing document; it never reads an admin record. */
  datatype LegacyData = LegacyData(items: seq<Record>, subscribers: seq<Subscriber>)

  /** `readData()`: the parsed document, or an empty one; nothing is written back. */
  function Load(file: FileState<LegacyData>): (d: LegacyData)
    ensures !file.Parsed? ==> d.items == [] && d.subscribers == []
    ensures file.Parsed? ==> d == file.data
  {
    if file.Parsed? then file.data else LegacyData([], [])
  }

  /** The text a stored id compares as under `!=` against a route parameter:
      a string as itself, a non-negative whole number as its decimal digits. */
  function IdText(v: Json): (t: Option<string>)
    ensures v.JStr? ==> t == Some(v.str)
    ensures v.JNum? && t.Some? ==> Decimal.AllDigits(t.value) && Decimal.Parse(t.value) as real == v.num
    ensures v.JNum? && v.num >= 0.0 && v.num.Floor as real == v.num ==> t == Some(Decimal.Text(v.num.Floor))
  {
    match v
    case JStr(s) => Some(s)
    case JNum(x) =>
      if x >= 0.0 && x.Floor as real == x then
        Decimal.ParseText(x.Floor);
        Some(Decimal.Text(x.Floor))
      else None
    case _ => None
  }

  /** `i.id == id` with JavaScript's loose equality. */
  predicate LooselyHasId(r: Record, id: string)
  {
    IdKey in r && IdText(r[IdKey]) == Some(id)
  }

  /** `i => i.id != id`. */
  function Kept(id: string): Record -> bool
  {
    (r: Record) => !LooselyHasId(r, id)
  }

  /** GET /api/items: every stored item, whatever its status. */
  function List(d: LegacyData): (e: Effect<LegacyData>)
    ensures e.Respond? && e.response.status == 200 && e.response.body.Items?
    ensures e.response.body.items == d.items
  {
    Respond(Response(200, Items(d.items)))
  }

  const AccessToken := "admin-access-granted"

  /** POST /api/login against the credential written into the handler. */
  function Login(username: Option<string>, password: Option<string>): (r: Response)
    ensures r.status == 200 <==> username == Some("admin") && password == Some("paradox")
    ensures r.status == 200 ==> r.body == LoginOk(AccessToken, None)
    ensures r.status != 200 ==> r == Response(401, LoginFailed(None))
  {
    if username == Some("admin") && password == Some("paradox") then Response(200, LoginOk(AccessToken, None))
    else Response(401, LoginFailed(None))
  }

  /** A thrown write error reaches Express's default handler. */
  const WriteFailed := Response(500, ServerError)

  /** POST /api/items: append `{id: Date.now(), ...body}`. */
  function Create(d: LegacyData, body: Record, now: nat): (e: Effect<LegacyData>)
    ensures e.Persist? && e.failed == WriteFailed
    ensures |e.next.items| == |d.items| + 1 && e.next.items[..|d.items|] == d.items
    ensures e.next.subscribers == d.subscribers
    ensures e.saved == Response(200, One(e.next.items[|d.items|]))
    ensures var n := e.next.items[|d.items|];
      && IdKey in n && n[IdKey] == (if IdKey in body then body[IdKey] else JNum(now as real))
      && forall k :: k != IdKey ==> (k in n <==> k in body) && (k in body ==> n[k] == body[k])
  {
    var n := map[IdKey := JNum(now as real)] + body;
    Persist(d.(items := d.items + [n]), Response(200, One(n)), WriteFailed)
  }

  /** DELETE /api/items/:id: keep only the items whose id differs; report success regardless. */
  function Delete(d: LegacyData, id: string): (e: Effect<LegacyData>)
    ensures e.Persist? && e.saved == Response(200, Acknowledged) && e.failed == WriteFailed
    ensures e.next.subscribers == d.subscribers
    ensures forall r :: r in e.next.items <==> r in d.items && !LooselyHasId(r, id)
    ensures forall r :: multiset(e.next.items)[r] == if LooselyHasId(r, id) then 0 else multiset(d.items)[r]
    ensures IsSubsequence(e.next.items, d.items)
  {
    FilterIsSubsequence(Kept(id), d.items);
    Persist(d.(items := Filter(Kept(id), d.items)), Response(200, Acknowledged), WriteFailed)
  }

  datatype Request = GetItems | PostLogin(username: Option<string>, password: Option<string>)
                   | PostItem(body: Record) | DeleteItem(id: string)

  /** One request against the backing file; login does not read it. */
  function Serve(file: FileState<LegacyData>, env: Store.Env, req: Request): (r: Reply<FileState<LegacyData>>)
    ensures r.state != file ==> env.writeOk && (req.PostItem? || req.DeleteItem?) && r.state.Parsed?
    ensures req.DeleteItem? ==> r.response.status == (if env.writeOk then 200 else 500)
    ensures req.PostLogin? ==> r.response == Login(req.username, req.password)
  {
    match req
    case GetItems => Apply(file, List(Load(file)), env.writeOk)
    case PostLogin(u, p) => Reply(Login(u, p), file)
    case PostItem(body) => Apply(file, Create(Load(file), body, env.now), env.writeOk)
    case DeleteItem(id) => Apply(file, Delete(Load(file), id), env.writeOk)
  }

  /** A strictly equal string id is also loosely equal. */
  lemma StrictImpliesLoose(r: Record, id: string)
    ensures HasId(r, id) ==> LooselyHasId(r, id)
  {
  }

  /** The earlier GET /api/items is the current GET /api/items/all, and differs from the
      current GET /api/items as soon as one stored item is not active. */
  lemma ListIgnoresStatus(s: Snapshot, k: nat)
    ensures List(LegacyData(s.items, s.subscribers)).response == Store.ListAll(s).response
    ensures k < |s.items| && !IsActive(s.items[k]) ==>
      List(LegacyData(s.items, s.subscribers)).response != Store.ListActive(s).response
  {
    if k < |s.items| && !IsActive(s.items[k]) {
      assert s.items[k] !in Store.ListActive(s).response.body.items;
    }
  }

  /** Without a data file the earlier server has no items; the current one has its three seeds. */
  lemma FallbacksDiffer()
    ensures Load(Missing).items == [] && Load(Corrupt).items == []
    ensures |Store.Load(Missing).items| == 3 && |Store.Load(Corrupt).items| == 3
  {
  }

  /** Deleting an id nothing matches: the earlier server answers 200 and rewrites the same items,
      the current one answers 404. */
  lemma DeleteUnknownId(s: Snapshot, id: string)
    requires forall i :: 0 <= i < |s.items| ==> !LooselyHasId(s.items[i], id)
    ensures Delete(LegacyData(s.items, s.subscribers), id).next.items == s.items
    ensures Delete(LegacyData(s.items, s.subscribers), id).saved.status == 200
    ensures Store.Delete(s, id).response == Store.ItemNotFound
  {
    FilterAll(Kept(id), s.items);
  }

  /** With two items sharing an id, the earlier server deletes both and the current one only the first. */
  lemma DeleteEveryMatch(s: Snapshot, id: string, a: Record, b: Record)
    requires s.items == [a, b] && HasId(a, id) && HasId(b, id)
    ensures Delete(LegacyData(s.items, s.subscribers), id).next.items == []
    ensures Store.Delete(s, id).next.items == [b]
  {
    FilterNone(Kept(id), s.items);
    assert IsFirst(IdMatch(id), s.items, 0);
  }

  /** The earlier login ignores the stored credential; the current one accepts admin/paradox only
      when that is the stored pair. */
  lemma LoginIgnoresStore(s: Snapshot, now: nat)
    ensures Login(Some("admin"), Some("paradox")).status == 200
    ensures Store.Login(s, Some("admin"), Some("paradox"), now).response.status == 200
      <==> s.admin == Store.DefaultAdmin
  {
  }

  /** An item the earlier server creates (with a generated id and no status) is loosely found by the
      decimal text of its id, yet no strict string lookup of the current server matches it, and the
      current public listing leaves it out. */
  lemma CreatedItemStrangerToCurrentServer(d: LegacyData, body: Record, now: nat, id: string)
    requires IdKey !in body && StatusKey !in body
    ensures var n := Create(d, body, now).next.items[|d.items|];
      && LooselyHasId(n, Decimal.Text(now))
      && !HasId(n, id)
      && !IsActive(n)
  {
    Decimal.ParseText(now);
    var n := Create(d, body, now).next.items[|d.items|];
    assert n[IdKey] == JNum(now as real);
    assert (now as real).Floor == now;
  }
}

=== FILE: reconcile.dfy ===
/** The client against the current server: each DataContext call sends one
    request, the server answers and perhaps rewrites its file, and the client
    edits its cache from the answer alone. These lemmas say when the cache then
    still shows what a fresh fetch would, and where it does not. */
module Reconcile {
  import opened Seqs
  import opened Data
  import Store
  import StoreFacts
  import ClientCache
  import Auth
  import Legacy
  import ItemDetail

  /** What the client's HTTP library makes of a reply: a 2xx status hands over the payload,
      any other status becomes a rejection carrying it. */
  function Received<T>(resp: Response, payload: T): (h: Http<T>)
    ensures h.Ok? <==> IsSuccess(resp)
    ensures h.Ok? ==> h.data == payload
    ensures h.Failed? ==> h.status == Some(resp.status)
  {
    if IsSuccess(resp) then Ok(payload) else Failed(Some(resp.status))
  }

  /** The fields of a reply body the client reads (`response.data`, `response.data.subscriber`). */
  function RecordOf(b: Body): Record
  {
    if b.One? then b.item else map[]
  }

  function ItemsOf(b: Body): seq<Record>
  {
    if b.Items? then b.items else []
  }

  function SubscribersOf(b: Body): seq<Subscriber>
  {
    if b.Subscribers? then b.subscribers else []
  }

  function SubscriberOf(b: Body): Subscriber
  {
    if b.Subscribed? then b.subscriber else Subscriber("", "", "")
  }

  function LoginDataOf(b: Body): Auth.LoginData
  {
    if b.LoginOk? then Auth.LoginData(true, Some(b.token)) else Auth.LoginData(false, None)
  }

  /** One request against a server whose file holds `s`: its answer and the document after it. */
  function Server(s: Snapshot, env: Store.Env, req: Store.Request): Reply<Snapshot>
  {
    var r := Store.Serve(Parsed(s), env, req);
    Reply(r.response, Store.Load(r.state))
  }

  /** One effect carried out on a file holding `s`, read back as a document. */
  function Run(s: Snapshot, e: Effect<Snapshot>, writeOk: bool): Reply<Snapshot>
  {
    var r := Apply(Parsed(s), e, writeOk);
    Reply(r.response, Store.Load(r.state))
  }

  /** On a parsed file, serving a request that reads the store is running its handler's effect. */
  lemma ServeParsed(s: Snapshot, env: Store.Env, req: Store.Request)
    requires Store.ReadsStore(req)
    ensures Server(s, env, req) == Run(s, Store.Handle(s, env, req), env.writeOk)
  {
  }

  /** The cache shows what a fresh fetch would: the active items in stored order, and every subscriber. */
  predicate InSync(c: ClientCache.Cache, s: Snapshot)
  {
    c.items == Filter(IsActive, s.items) && c.subscribers == s.subscribers
  }

  /** Fetching both lists brings any cache in step with the server, and the reads change nothing there. */
  lemma FetchBringsInSync(c: ClientCache.Cache, s: Snapshot, writeOk: bool)
    ensures var ri := Run(s, Store.ListActive(s), writeOk);
      var rs := Run(s, Store.ListSubscribers(s), writeOk);
      var c2 := ClientCache.FetchItems(c, Received(ri.response, ItemsOf(ri.response.body)));
      var c3 := ClientCache.FetchSubscribers(c2, Received(rs.response, SubscribersOf(rs.response.body)));
      ri.state == s && rs.state == s && InSync(c3, s)
  {
  }

  /** The provider starts with empty arrays and, on mount, fetches only the items: its cache then
      shows the public listing, and matches the store only once the store has no subscribers. */
  lemma MountFetchesItemsOnly(s: Snapshot, writeOk: bool)
    ensures var r := Run(s, Store.ListActive(s), writeOk);
      var c := ClientCache.FetchItems(ClientCache.Initial, Received(r.response, ItemsOf(r.response.body)));
      && c.items == Filter(IsActive, s.items) && c.subscribers == []
      && (InSync(c, s) <==> s.subscribers == [])
  {
  }

  /** `addItem` keeps the cache in step: the server's new record is always active, so it joins
      the listing exactly where the client appends it; a failed write changes neither side. */
  lemma {:induction false} AddReconciles(c: ClientCache.Cache, s: Snapshot, env: Store.Env, body: Record)
    requires InSync(c, s)
    ensures var r := Run(s, Store.Create(s, body, env.now, env.nowIso), env.writeOk);
      var o := ClientCache.AddItem(c, Received(r.response, RecordOf(r.response.body)));
      InSync(o.cache, r.state) && (o.result <==> env.writeOk)
  {
    var e := Store.Create(s, body, env.now, env.nowIso);
    if env.writeOk {
      var n := e.next.items[|s.items|];
      assert e.next.items == s.items + [n];
      FilterAppend(IsActive, s.items, [n]);
      Filter1(IsActive, n);
    }
  }

  /** With unique ids, `deleteItem` keeps the cache in step: the server splices out the one
      matching record and the client filters the same one out of the active listing. */
  lemma {:induction false} DeleteReconciles(c: ClientCache.Cache, s: Snapshot, writeOk: bool, id: string)
    requires Store.PathSafe(id)
    requires InSync(c, s) && StoreFacts.UniqueIds(s.items)
    ensures var r := Run(s, Store.Delete(s, id), writeOk);
      var o := ClientCache.DeleteItem(c, id, Received(r.response, ()));
      InSync(o.cache, r.state) && (o.result <==> writeOk && !Store.NoItemWithId(s.items, id))
  {
    var e := Store.Delete(s, id);
    if e.Persist? && writeOk {
      var i := FirstIndex(IdMatch(id), s.items).value;
      assert e.next.items == RemoveAt(s.items, i);
      forall j | 0 <= j < |s.items| && j != i
        ensures ClientCache.OtherId(id)(s.items[j])
      {
        assert !HasId(s.items[j], id);
      }
      RemoveOnlyFailure(ClientCache.OtherId(id), s.items, i);
      FiltersCommute(ClientCache.OtherId(id), IsActive, s.items);
    }
  }

  /** Two listed records with one id: the server deletes the first, the client drops both. */
  lemma DeleteDivergesOnDuplicateIds(c: ClientCache.Cache, s: Snapshot, id: string, a: Record, b: Record)
    requires Store.PathSafe(id)
    requires InSync(c, s)
    requires s.items == [a, b] && HasId(a, id) && HasId(b, id) && IsActive(a) && IsActive(b)
    ensures var r := Run(s, Store.Delete(s, id), true);
      var o := ClientCache.DeleteItem(c, id, Received(r.response, ()));
      r.state.items == [b] && o.cache.items == [] && !InSync(o.cache, r.state)
  {
    Filter2(IsActive, a, b);
    Filter1(IsActive, a);
    Filter1(IsActive, b);
    Filter2(ClientCache.OtherId(id), a, b);
    Filter1(ClientCache.OtherId(id), a);
    Filter1(ClientCache.OtherId(id), b);
    assert IsFirst(IdMatch(id), s.items, 0);
    assert RemoveAt(s.items, 0) == [b];
  }

  /** Two listed records with one id: the server rewrites the first, the client replaces both
      with the reply, so the two agree only when the merged record equals the second. */
  lemma UpdateDivergesOnDuplicateIds(c: ClientCache.Cache, s: Snapshot, id: string, body: Record, a: Record, b: Record)
    requires Store.PathSafe(id)
    requires InSync(c, s)
    requires s.items == [a, b] && HasId(a, id) && HasId(b, id) && IsActive(a) && IsActive(b)
    ensures var r := Run(s, Store.Update(s, id, body), true);
      var o := ClientCache.UpdateItem(c, id, Received(r.response, RecordOf(r.response.body)));
      var n := Store.Merged(a, body);
      && r.state.items == [n, b] && o.cache.items == [n, n]
      && (InSync(o.cache, r.state) <==> n == b)
  {
    var n := Store.Merged(a, body);
    UpdateFirstOfTwo(s, id, body, a, b);
    var r := Run(s, Store.Update(s, id, body), true);
    assert r.state == s.(items := [n, b]);
    assert Received(r.response, RecordOf(r.response.body)) == Ok(n);
    Filter2(IsActive, a, b);
    Filter1(IsActive, a);
    Filter1(IsActive, b);
    ReplaceBoth(IdMatch(id), a, b, n);
    var o := ClientCache.UpdateItem(c, id, Ok(n));
    assert o.cache == c.(items := [n, n]);
    PairInSync(o.cache, r.state, n, b);
  }

  /** A cache holding the reply twice matches a store holding it beside an active record only when the two coincide. */
  lemma PairInSync(c: ClientCache.Cache, s: Snapshot, n: Record, b: Record)
    requires c.items == [n, n] && s.items == [n, b] && IsActive(b) && c.subscribers == s.subscribers
    ensures InSync(c, s) <==> n == b
  {
    Filter2(IsActive, n, b);
    Filter1(IsActive, n);
    Filter1(IsActive, b);
  }

  /** The server's side: only the first of two same-id records is rewritten. */
  lemma UpdateFirstOfTwo(s: Snapshot, id: string, body: Record, a: Record, b: Record)
    requires s.items == [a, b] && HasId(a, id)
    ensures Run(s, Store.Update(s, id, body), true)
      == Reply(Response(200, One(Store.Merged(a, body))), s.(items := [Store.Merged(a, body), b]))
  {
    var n := Store.Merged(a, body);
    assert FirstIndex(IdMatch(id), s.items) == Some(0);
    assert s.items[0 := n] == [n, b];
    var e := Store.Update(s, id, body);
    assert e == Persist(s.(items := [n, b]), Response(200, One(n)), Response(500, Error("Failed to update item")));
  }

  /** With unique ids, an update that leaves a listed item active keeps the cache in step:
      the server rewrites that record in place and the client replaces the same one. */
  lemma {:induction false} UpdateReconciles(c: ClientCache.Cache, s: Snapshot, writeOk: bool, id: string, body: Record)
    requires Store.PathSafe(id)
    requires InSync(c, s) && StoreFacts.UniqueIds(s.items)
    requires forall j :: 0 <= j < |s.items| && HasId(s.items[j], id) ==> IsActive(s.items[j])
    requires StatusKey in body ==> body[StatusKey] == JStr("active")
    ensures var r := Run(s, Store.Update(s, id, body), writeOk);
      var o := ClientCache.UpdateItem(c, id, Received(r.response, RecordOf(r.response.body)));
      InSync(o.cache, r.state) && (o.result <==> writeOk && !Store.NoItemWithId(s.items, id))
  {
    var e := Store.Update(s, id, body);
    if e.Persist? && writeOk {
      var i :| IsFirst(IdMatch(id), s.items, i) && e.next.items == s.items[i := e.saved.body.item]
               && Store.IsMerge(s.items[i], body, e.saved.body.item);
      var x, n := s.items[i], e.saved.body.item;
      assert IsActive(n);
      ActiveAround(s.items, i, n);
      NoMatchAround(s.items, i, id);
      var fa, fb := Filter(IsActive, s.items[..i]), Filter(IsActive, s.items[i + 1..]);
      ReplaceBetween(IdMatch(id), fa, x, fb, n);
    }
  }

  /** The active listing before and after an active record at `i` is replaced by an active one. */
  lemma ActiveAround(items: seq<Record>, i: nat, n: Record)
    requires i < |items| && IsActive(items[i]) && IsActive(n)
    ensures var fa, fb := Filter(IsActive, items[..i]), Filter(IsActive, items[i + 1..]);
      && Filter(IsActive, items) == fa + [items[i]] + fb
      && Filter(IsActive, items[i := n]) == fa + [n] + fb
  {
    var a, b, x := items[..i], items[i + 1..], items[i];
    assert items == a + [x] + b;
    assert items[i := n] == a + [n] + b;
    FilterAppend(IsActive, a + [x], b);
    FilterAppend(IsActive, a, [x]);
    FilterAppend(IsActive, a + [n], b);
    FilterAppend(IsActive, a, [n]);
    Filter1(IsActive, x);
    Filter1(IsActive, n);
  }

  /** With unique ids, no listed record before or after the one at `i` carries its id. */
  lemma NoMatchAround(items: seq<Record>, i: nat, id: string)
    requires StoreFacts.UniqueIds(items) && i < |items| && HasId(items[i], id)
    ensures var fa, fb := Filter(IsActive, items[..i]), Filter(IsActive, items[i + 1..]);
      && (forall j :: 0 <= j < |fa| ==> !IdMatch(id)(fa[j]))
      && (forall j :: 0 <= j < |fb| ==> !IdMatch(id)(fb[j]))
  {
    var a, b := items[..i], items[i + 1..];
    forall k | 0 <= k < |a|
      ensures !IdMatch(id)(a[k])
    {
      assert a[k] == items[k];
    }
    forall k | 0 <= k < |b|
      ensures !IdMatch(id)(b[k])
    {
      assert b[k] == items[i + 1 + k];
    }
    FilterKeepsAbsence(IsActive, IdMatch(id), a);
    FilterKeepsAbsence(IsActive, IdMatch(id), b);
  }

  /** Deactivating a listed item leaves the cache stale: the client keeps the inactive record
      that a fresh fetch of the public listing would no longer return. */
  lemma DeactivateLeavesCacheStale(c: ClientCache.Cache, s: Snapshot, id: string, k: nat)
    requires Store.PathSafe(id)
    requires InSync(c, s)
    requires k < |s.items| && HasId(s.items[k], id) && IsActive(s.items[k])
    ensures var r := Run(s, Store.Update(s, id, map[StatusKey := JStr("inactive")]), true);
      var o := ClientCache.UpdateItem(c, id, Received(r.response, RecordOf(r.response.body)));
      o.result && !InSync(o.cache, r.state)
  {
    var body := map[StatusKey := JStr("inactive")];
    var e := Store.Update(s, id, body);
    var i :| IsFirst(IdMatch(id), s.items, i) && e.next.items == s.items[i := e.saved.body.item]
             && Store.IsMerge(s.items[i], body, e.saved.body.item);
    var n := e.saved.body.item;
    assert !IsActive(n);
    assert s.items[k] in c.items;
    var m :| 0 <= m < |c.items| && c.items[m] == s.items[k];
    assert ClientCache.UpdateItem(c, id, Ok(n)).cache.items[m] == n;
  }

  /** `subscribe` keeps the cache in step whatever the server answers, and the client reports a
      duplicate exactly when the server found the address taken. */
  lemma SubscribeReconciles(c: ClientCache.Cache, s: Snapshot, env: Store.Env, email: Option<string>)
    requires InSync(c, s)
    ensures var r := Run(s, Store.Subscribe(s, email, env.now, env.nowIso), env.writeOk);
      var o := ClientCache.Subscribe(c, Received(r.response, SubscriberOf(r.response.body)));
      && InSync(o.cache, r.state)
      && (o.result.success <==> Store.ValidEmail(email) && !Store.EmailTaken(s.subscribers, email.value) && env.writeOk)
      && (o.result.message == ClientCache.AlreadyRegistered <==>
            Store.ValidEmail(email) && Store.EmailTaken(s.subscribers, email.value))
  {
  }

  /** With unique subscriber ids, `deleteSubscriber` keeps the cache in step. */
  lemma {:induction false} DeleteSubscriberReconciles(c: ClientCache.Cache, s: Snapshot, writeOk: bool, id: string)
    requires Store.PathSafe(id)
    requires InSync(c, s) && StoreFacts.UniqueSubscriberIds(s.subscribers)
    ensures var r := Run(s, Store.DeleteSubscriber(s, id), writeOk);
      var o := ClientCache.DeleteSubscriber(c, id, Received(r.response, ()));
      InSync(o.cache, r.state) && (o.result <==> writeOk && !Store.NoSubscriberWithId(s.subscribers, id))
  {
    var e := Store.DeleteSubscriber(s, id);
    if e.Persist? && writeOk {
      var i := FirstIndex(SubscriberIdMatch(id), s.subscribers).value;
      assert e.next.subscribers == RemoveAt(s.subscribers, i);
      forall j | 0 <= j < |s.subscribers| && j != i
        ensures ClientCache.OtherSubscriber(id)(s.subscribers[j])
      {
      }
      RemoveOnlyFailure(ClientCache.OtherSubscriber(id), s.subscribers, i);
    }
  }

  /** The session logs in exactly when the server accepts the stored credential, and keeps the
      token the server issued. */
  lemma LoginReconciles(st: Auth.Session, s: Snapshot, now: nat, username: Option<string>, password: Option<string>)
    ensures var r := Run(s, Store.Login(s, username, password, now), true);
      var step := Auth.Login(st, Received(r.response, LoginDataOf(r.response.body)));
      && (step.result <==> username == Some(s.admin.username) && password == Some(s.admin.password))
      && (step.result ==> step.session.storage[Auth.TokenKey] == r.response.body.token
                          && r.response.body.token[..|Store.TokenPrefix|] == Store.TokenPrefix)
      && (!step.result ==> step.session == st)
  {
  }

  /** Against the earlier server the session logs in with the credential fixed there, and stores
      its fixed token. */
  lemma LegacyLoginReconciles(st: Auth.Session, username: Option<string>, password: Option<string>)
    ensures var resp := Legacy.Login(username, password);
      var step := Auth.Login(st, Received(resp, LoginDataOf(resp.body)));
      && (step.result <==> username == Some("admin") && password == Some("paradox"))
      && (step.result ==> step.session.storage[Auth.TokenKey] == Legacy.AccessToken)
  {
  }

  /** What the item page renders after its first fetch of `GET /api/items/<id>`. */
  function ItemPage(s: Snapshot, env: Store.Env, id: string): ItemDetail.View
  {
    var r := Run(s, Store.Handle(s, env, Store.ItemsPath(id)), env.writeOk);
    ItemDetail.Select(ItemDetail.AfterFetch(ItemDetail.Initial, Received(r.response, RecordOf(r.response.body))))
  }

  /** The item page shows "not found" exactly when the server has no item with that id, and
      otherwise renders the first such item, whether or not it is active. The id `all`, in any
      letter case, reaches the full listing instead: an array with none of an item's fields,
      which renders as an empty detail page. */
  lemma ItemPageShowsLookup(s: Snapshot, env: Store.Env, id: string)
    requires Store.PathSafe(id)
    ensures Store.NamesAll(id) ==> ItemPage(s, env, id) == ItemDetail.Detail(map[])
    ensures !Store.NamesAll(id) ==>
      var v := ItemPage(s, env, id);
      && (v == ItemDetail.NotFound <==> Store.NoItemWithId(s.items, id))
      && (v != ItemDetail.NotFound ==> exists i :: IsFirst(IdMatch(id), s.items, i) && v == ItemDetail.Show(s.items[i]))
      && v != ItemDetail.Loading
  {
  }

  /** An item hidden from the public listing is still rendered on its own page, as any item is,
      unless its id is shadowed by the `all` route. */
  lemma InactiveItemStillViewable(s: Snapshot, env: Store.Env, id: string, i: nat)
    requires Store.PathSafe(id)
    requires IsFirst(IdMatch(id), s.items, i) && !IsActive(s.items[i])
    ensures ItemPage(s, env, id) == if Store.NamesAll(id) then ItemDetail.Detail(map[]) else ItemDetail.Show(s.items[i])
    ensures s.items[i] !in Store.ListActive(s).response.body.items
  {
    if !Store.NamesAll(id) {
      var j := FirstIndex(IdMatch(id), s.items).value;
      FirstIsUnique(IdMatch(id), s.items, i, j);
    }
  }
}

=== FILE: seqs.dfy ===
/** Sequence operations the store and the client share: JavaScript's
    `filter`, `findIndex`/`find`, `splice(i, 1)` and `map`, each with the
    facts the rest of the model relies on. */
module Seqs {

  datatype Option<+T> = None | Some(value: T)

  /** `b` contains the elements of `a`, in the same order, possibly with others in between. */
  predicate IsSubsequence<T(==)>(a: seq<T>, b: seq<T>)
    decreases |b|
  {
    if |a| == 0 then true
    else if |b| == 0 then false
    else (a[0] == b[0] && IsSubsequence(a[1..], b[1..])) || IsSubsequence(a, b[1..])
  }

  /** `Array.prototype.filter`: the elements satisfying `p`, in stored order. */
  function Filter<T(!new)>(p: T -> bool, s: seq<T>): (r: seq<T>)
    ensures |r| <= |s|
    ensures forall x :: x in r <==> x in s && p(x)
    ensures forall x :: multiset(r)[x] == if p(x) then multiset(s)[x] else 0
    decreases |s|
  {
    if |s| == 0 then []
    else
      var rest := Filter(p, s[1..]);
      assert s == [s[0]] + s[1..];
      assert multiset(s) == multiset{s[0]} + multiset(s[1..]);
      if p(s[0]) then [s[0]] + rest else rest
  }

  lemma {:induction false} FilterIsSubsequence<T(!new)>(p: T -> bool, s: seq<T>)
    ensures IsSubsequence(Filter(p, s), s)
    decreases |s|
  {
    if |s| > 0 {
      FilterIsSubsequence(p, s[1..]);
      if p(s[0]) {
        var r := Filter(p, s);
        assert r[0] == s[0] && r[1..] == Filter(p, s[1..]);
      }
    }
  }

  lemma {:induction false} FilterIdempotent<T(!new)>(p: T -> bool, s: seq<T>)
    ensures Filter(p, Filter(p, s)) == Filter(p, s)
    decreases |s|
  {
    if |s| > 0 {
      FilterIdempotent(p, s[1..]);
      if p(s[0]) {
        var r := Filter(p, s);
        assert r[0] == s[0] && r[1..] == Filter(p, s[1..]);
      }
    }
  }

  /** A filter whose predicate holds everywhere keeps the whole sequence. */
  lemma {:induction false} FilterAll<T(!new)>(p: T -> bool, s: seq<T>)
    requires forall i :: 0 <= i < |s| ==> p(s[i])
    ensures Filter(p, s) == s
    decreases |s|
  {
    if |s| > 0 {
      var t := s[1..];
      forall i | 0 <= i < |t|
        ensures p(t[i])
      {
        assert t[i] == s[i + 1];
      }
      FilterAll(p, t);
      assert Filter(p, s) == [s[0]] + Filter(p, t);
      assert s == [s[0]] + t;
    }
  }

  /** A property no element has is one no kept element has. */
  lemma FilterKeepsAbsence<T(!new)>(p: T -> bool, q: T -> bool, s: seq<T>)
    requires forall i :: 0 <= i < |s| ==> !q(s[i])
    ensures forall j :: 0 <= j < |Filter(p, s)| ==> !q(Filter(p, s)[j])
  {
    var r := Filter(p, s);
    forall j | 0 <= j < |r|
      ensures !q(r[j])
    {
      assert r[j] in s;
    }
  }

  /** A filter whose predicate fails everywhere keeps nothing. */
  lemma {:induction false} FilterNone<T(!new)>(p: T -> bool, s: seq<T>)
    requires forall i :: 0 <= i < |s| ==> !p(s[i])
    ensures Filter(p, s) == []
    decreases |s|
  {
    if |s| > 0 {
      FilterNone(p, s[1..]);
    }
  }

  /** Filters over one, two and three elements, spelled out. */
  lemma Filter1<T(!new)>(p: T -> bool, a: T)
    ensures Filter(p, [a]) == if p(a) then [a] else []
  {
    assert [a][1..] == [];
  }

  lemma Filter2<T(!new)>(p: T -> bool, a: T, b: T)
    ensures Filter(p, [a, b]) == Filter(p, [a]) + Filter(p, [b])
  {
    FilterAppend(p, [a], [b]);
    assert [a] + [b] == [a, b];
  }

  lemma Filter3<T(!new)>(p: T -> bool, a: T, b: T, c: T)
    ensures Filter(p, [a, b, c]) == Filter(p, [a]) + (Filter(p, [b]) + Filter(p, [c]))
  {
    Filter2(p, b, c);
    FilterAppend(p, [a], [b, c]);
    assert [a] + [b, c] == [a, b, c];
  }

  /** Filtering distributes over concatenation. */
  lemma {:induction false} FilterAppend<T(!new)>(p: T -> bool, a: seq<T>, b: seq<T>)
    ensures Filter(p, a + b) == Filter(p, a) + Filter(p, b)
    decreases |a|
  {
    if |a| == 0 {
      assert a + b == b;
    } else {
      assert (a + b)[1..] == a[1..] + b;
      FilterAppend(p, a[1..], b);
    }
  }

  /** Two filters commute. */
  lemma {:induction false} FiltersCommute<T(!new)>(p: T -> bool, q: T -> bool, s: seq<T>)
    ensures Filter(q, Filter(p, s)) == Filter(p, Filter(q, s))
    decreases |s|
  {
    if |s| > 0 {
      FiltersCommute(p, q, s[1..]);
      var fp, fq := Filter(p, s), Filter(q, s);
      if p(s[0]) {
        assert fp[0] == s[0] && fp[1..] == Filter(p, s[1..]);
      }
      if q(s[0]) {
        assert fq[0] == s[0] && fq[1..] == Filter(q, s[1..]);
      }
    }
  }

  /** `i` is the index `findIndex(p)` reports: the first element satisfying `p`. */
  ghost predicate IsFirst<T>(p: T -> bool, s: seq<T>, i: int)
  {
    0 <= i < |s| && p(s[i]) && forall j :: 0 <= j < i ==> !p(s[j])
  }

  /** `Array.prototype.findIndex`, with `None` for JavaScript's `-1`. */
  function FirstIndex<T>(p: T -> bool, s: seq<T>): (r: Option<nat>)
    ensures r.Some? ==> IsFirst(p, s, r.value)
    ensures r.None? <==> forall j :: 0 <= j < |s| ==> !p(s[j])
    decreases |s|
  {
    if |s| == 0 then None
    else if p(s[0]) then Some(0)
    else match FirstIndex(p, s[1..])
      case None => None
      case Some(i) => Some(i + 1)
  }

  /** There is only one first match. */
  lemma FirstIsUnique<T>(p: T -> bool, s: seq<T>, i: int, j: int)
    requires IsFirst(p, s, i) && IsFirst(p, s, j)
    ensures i == j
  {
  }

  /** `splice(i, 1)`: drops index `i` and closes the gap. */
  function RemoveAt<T>(s: seq<T>, i: nat): (r: seq<T>)
    requires i < |s|
    ensures |r| == |s| - 1
    ensures forall j :: 0 <= j < i ==> r[j] == s[j]
    ensures forall j :: i <= j < |r| ==> r[j] == s[j + 1]
    ensures multiset(r) == multiset(s) - multiset{s[i]}
  {
    assert s == s[..i] + [s[i]] + s[i + 1..];
    s[..i] + s[i + 1..]
  }

  /** Removing the only element that fails `p` is the same as filtering by `p`. */
  lemma {:induction false} RemoveOnlyFailure<T(!new)>(p: T -> bool, s: seq<T>, i: nat)
    requires i < |s| && !p(s[i])
    requires forall j :: 0 <= j < |s| && j != i ==> p(s[j])
    ensures RemoveAt(s, i) == Filter(p, s)
  {
    var a, b := s[..i], s[i + 1..];
    assert s == a + ([s[i]] + b);
    forall j | 0 <= j < |a| ensures p(a[j]) { assert a[j] == s[j]; }
    forall j | 0 <= j < |b| ensures p(b[j]) { assert b[j] == s[i + 1 + j]; }
    FilterAll(p, a);
    FilterAll(p, b);
    FilterAppend(p, [s[i]], b);
    assert Filter(p, [s[i]]) == [];
    FilterAppend(p, a, [s[i]] + b);
  }

  /** `s.map(x => p(x) ? y : x)`: every element satisfying `p` becomes `y`. */
  function ReplaceWhere<T>(p: T -> bool, s: seq<T>, y: T): (r: seq<T>)
    ensures |r| == |s|
    ensures forall j :: 0 <= j < |s| && p(s[j]) ==> r[j] == y
    ensures forall j :: 0 <= j < |s| && !p(s[j]) ==> r[j] == s[j]
  {
    seq(|s|, j requires 0 <= j < |s| => if p(s[j]) then y else s[j])
  }

  /** Replacing `p`-elements by `y` is invisible to a filter that rejects `y` and every `p`-element. */
  lemma {:induction false} FilterReplaced<T(!new)>(p: T -> bool, q: T -> bool, s: seq<T>, y: T)
    requires !q(y)
    requires forall i :: 0 <= i < |s| && p(s[i]) ==> !q(s[i])
    ensures Filter(q, ReplaceWhere(p, s, y)) == Filter(q, s)
    decreases |s|
  {
    if |s| > 0 {
      var r := ReplaceWhere(p, s, y);
      assert r[1..] == ReplaceWhere(p, s[1..], y);
      FilterReplaced(p, q, s[1..], y);
    }
  }

  /** Replacing by `p` in a pair of matches replaces both. */
  lemma ReplaceBoth<T>(p: T -> bool, a: T, b: T, y: T)
    requires p(a) && p(b)
    ensures ReplaceWhere(p, [a, b], y) == [y, y]
  {
  }

  /** Replacing by `p` touches exactly the one matching element between two match-free runs. */
  lemma ReplaceBetween<T>(p: T -> bool, a: seq<T>, x: T, b: seq<T>, y: T)
    requires p(x)
    requires forall j :: 0 <= j < |a| ==> !p(a[j])
    requires forall j :: 0 <= j < |b| ==> !p(b[j])
    ensures ReplaceWhere(p, a + [x] + b, y) == a + [y] + b
  {
    var s := a + [x] + b;
    forall j | 0 <= j < |s|
      ensures ReplaceWhere(p, s, y)[j] == (a + [y] + b)[j]
    {
      if j < |a| {
        assert s[j] == a[j];
      } else if j > |a| {
        assert s[j] == b[j - |a| - 1];
      }
    }
  }
}

=== FILE: store.dfy ===
/** The current server (server/server.js): every request reads the whole
    backing document, runs one handler against it, and writes the whole
    document back when the handler changed it. Each handler is a pure
    function from the loaded snapshot to an `Effect`; `Serve` adds the
    reading and writing of the file. */
module Store {
  import opened Seqs
  import opened Data
  import Decimal

  const Seed1 := Item("1", "Nebula's Embrace", Art, 
    "A digital masterpiece capturing the ethereal dance of cosmic gases in the Orion Nebula. This piece explores the paradox of creation through destruction, as stars are born from the very chaos that consumes them. The swirling violets and deep cyans represent the duality of existence—light emerging from darkness, order from entropy.", 299.99,
    "https://images.unsplash.com/photo-1462331940025-496dfbfc7564?w=800&q=80",
    "2024-01-15T10:30:00Z", Active)
  const Seed2 := Item("2", "The Paradox Protocol", Article, 
    "In the vast expanse of digital consciousness, we find ourselves at the intersection of ancient wisdom and future technology. The Winchester Paradox is not merely a concept—it is a living, breathing entity that exists in the space between what was and what will be.\n\nThis article explores the philosophical underpinnings of paradoxical existence, drawing from quantum mechanics, Eastern philosophy, and the emerging field of digital metaphysics. We examine how contradictions can coexist, how the observer shapes the observed, and how meaning emerges from the void.\n\nThe protocol demands that we embrace uncertainty, that we find comfort in the unknown, and that we recognize the infinite possibilities contained within every moment of indecision.", 0.0,
    "https://images.unsplash.com/photo-1451187580459-43490279c0fa?w=800&q=80",
    "2024-02-01T14:45:00Z", Active)
  const Seed3 := Item("3", "Void Crystal Pendant", Product, 
    "Handcrafted obsidian pendant infused with bioluminescent resin. Each piece is unique, containing a fragment of the void that seems to pulse with inner light. The crystal has been treated with a proprietary process that creates the illusion of depth—stare long enough, and you might see the universe staring back.", 149.99,
    "https://images.unsplash.com/photo-1617038260897-41a1f14a8ca0?w=800&q=80",
    "2024-02-10T09:00:00Z", Active)

  const DefaultAdmin := Credential("admin", "paradox")

  /** The document used when the backing file is missing or unreadable. */
  const DefaultData := Snapshot([Encode(Seed1), Encode(Seed2), Encode(Seed3)], [], DefaultAdmin)

  /** `readData()`: the parsed document, or the default one. */
  function Load(file: FileState<Snapshot>): Snapshot
  {
    if file.Parsed? then file.data else DefaultData
  }

  /** The file once `readData()` has run: a missing file is created with the default document. */
  function AfterRead(file: FileState<Snapshot>, writeOk: bool): FileState<Snapshot>
  {
    if file.Missing? && writeOk then Parsed(DefaultData) else file
  }

  lemma LoadFallback(file: FileState<Snapshot>, writeOk: bool)
    ensures !file.Parsed? ==>
      && |Load(file).items| == 3
      && (forall r :: r in Load(file).items ==> IsActive(r))
      && HasId(Load(file).items[0], "1") && HasId(Load(file).items[1], "2") && HasId(Load(file).items[2], "3")
      && Load(file).subscribers == []
      && Load(file).admin == Credential("admin", "paradox")
    ensures Load(AfterRead(file, writeOk)) == Load(file)
    ensures AfterRead(file, writeOk) != file <==> file.Missing? && writeOk
  {
  }

  function EmailMatch(email: string): Subscriber -> bool
  {
    (s: Subscriber) => s.email == email
  }

  ghost predicate NoItemWithId(items: seq<Record>, id: string)
  {
    forall i :: 0 <= i < |items| ==> !HasId(items[i], id)
  }

  ghost predicate NoSubscriberWithId(subs: seq<Subscriber>, id: string)
  {
    forall i :: 0 <= i < |subs| ==> subs[i].id != id
  }

  const ItemNotFound := Response(404, Error("Item not found"))
  const SubscriberNotFound := Response(404, Error("Subscriber not found"))

  /** GET /api/items: the active items, in stored order. */
  function ListActive(s: Snapshot): (e: Effect<Snapshot>)
    ensures e.Respond? && e.response.status == 200 && e.response.body.Items?
    ensures forall r :: r in e.response.body.items <==> r in s.items && IsActive(r)
    ensures forall r :: multiset(e.response.body.items)[r] == if IsActive(r) then multiset(s.items)[r] else 0
    ensures IsSubsequence(e.response.body.items, s.items)
  {
    FilterIsSubsequence(IsActive, s.items);
    Respond(Response(200, Items(Filter(IsActive, s.items))))
  }

  /** GET /api/items/all: every stored item. */
  function ListAll(s: Snapshot): (e: Effect<Snapshot>)
    ensures e.Respond? && e.response.status == 200 && e.response.body.Items?
    ensures e.response.body.items == s.items
  {
    Respond(Response(200, Items(s.items)))
  }

  /** GET /api/items/:id: the first item with that id. */
  function GetItem(s: Snapshot, id: string): (e: Effect<Snapshot>)
    ensures e.Respond?
    ensures e.response == ItemNotFound <==> NoItemWithId(s.items, id)
    ensures e.response != ItemNotFound ==>
      exists i :: IsFirst(IdMatch(id), s.items, i) && e.response == Response(200, One(s.items[i]))
  {
    match FirstIndex(IdMatch(id), s.items)
    case None => Respond(ItemNotFound)
    case Some(i) => Respond(Response(200, One(s.items[i])))
  }

  /** `{id: generated, ...body, createdAt: now, status: 'active'}`. */
  function Created(body: Record, generated: Json, nowIso: string): Record
  {
    (map[IdKey := generated] + body)[CreatedAtKey := JStr(nowIso)][StatusKey := JStr("active")]
  }

  /** The record POST /api/items stores, key by key. */
  ghost predicate IsCreated(body: Record, generated: Json, nowIso: string, n: Record)
  {
    && IdKey in n && n[IdKey] == (if IdKey in body then body[IdKey] else generated)
    && CreatedAtKey in n && n[CreatedAtKey] == JStr(nowIso)
    && IsActive(n)
    && forall k :: k != IdKey && k != CreatedAtKey && k != StatusKey ==>
         (k in n <==> k in body) && (k in body ==> n[k] == body[k])
  }

  /** POST /api/items: append a new active record stamped with the clock. */
  function Create(s: Snapshot, body: Record, now: nat, nowIso: string): (e: Effect<Snapshot>)
    ensures e.Persist?
    ensures |e.next.items| == |s.items| + 1 && e.next.items[..|s.items|] == s.items
    ensures e.next.subscribers == s.subscribers && e.next.admin == s.admin
    ensures IsCreated(body, JStr(Decimal.Text(now)), nowIso, e.next.items[|s.items|])
    ensures e.saved == Response(201, One(e.next.items[|s.items|]))
    ensures e.failed == Response(500, Error("Failed to create item"))
  {
    var n := Created(body, JStr(Decimal.Text(now)), nowIso);
    Persist(s.(items := s.items + [n]), Response(201, One(n)), Response(500, Error("Failed to create item")))
  }

  /** Keeps key `k` as it was in `prev`, dropping it when `prev` had none (JSON drops `undefined`). */
  function Pin(m: Record, prev: Record, k: string): Record
  {
    if k in prev then m[k := prev[k]] else m - {k}
  }

  /** `{...old, ...body, id: old.id, createdAt: old.createdAt}` with `prev` for `old`. */
  function Merged(prev: Record, body: Record): Record
  {
    Pin(Pin(prev + body, prev, IdKey), prev, CreatedAtKey)
  }

  /** The record PUT /api/items/:id stores, key by key: `id` and `createdAt` as before,
      every other key from the body when the body has it and from the previous record otherwise. */
  ghost predicate IsMerge(prev: Record, body: Record, n: Record)
  {
    && (forall k :: (k == IdKey || k == CreatedAtKey) ==> (k in n <==> k in prev) && (k in prev ==> n[k] == prev[k]))
    && (forall k :: k != IdKey && k != CreatedAtKey ==>
          (k in n <==> k in prev || k in body)
          && (k in body ==> n[k] == body[k])
          && (k !in body && k in prev ==> n[k] == prev[k]))
  }

  /** The merge keeps `id` and `createdAt`, takes each other key from the body first and the old record second. */
  lemma MergedIsMerge(prev: Record, body: Record)
    ensures IsMerge(prev, body, Merged(prev, body))
  {
  }

  /** PUT /api/items/:id: merge the body into the first item with that id. */
  function Update(s: Snapshot, id: string, body: Record): (e: Effect<Snapshot>)
    ensures e.Respond? <==> NoItemWithId(s.items, id)
    ensures e.Respond? ==> e.response == ItemNotFound
    ensures e.Persist? ==>
      && e.saved.status == 200 && e.saved.body.One?
      && e.failed == Response(500, Error("Failed to update item"))
      && e.next.subscribers == s.subscribers && e.next.admin == s.admin
      && exists i :: IsFirst(IdMatch(id), s.items, i)
           && e.next.items == s.items[i := e.saved.body.item]
           && IsMerge(s.items[i], body, e.saved.body.item)
  {
    match FirstIndex(IdMatch(id), s.items)
    case None => Respond(ItemNotFound)
    case Some(i) =>
      var n := Merged(s.items[i], body);
      MergedIsMerge(s.items[i], body);
      Persist(s.(items := s.items[i := n]), Response(200, One(n)), Response(500, Error("Failed to update item")))
  }

  /** DELETE /api/items/:id: splice out the first item with that id. */
  function Delete(s: Snapshot, id: string): (e: Effect<Snapshot>)
    ensures e.Respond? <==> NoItemWithId(s.items, id)
    ensures e.Respond? ==> e.response == ItemNotFound
    ensures e.Persist? ==>
      && e.saved == Response(200, Message("Item deleted successfully"))
      && e.failed == Response(500, Error("Failed to delete item"))
      && e.next.subscribers == s.subscribers && e.next.admin == s.admin
      && exists i :: IsFirst(IdMatch(id), s.items, i) && e.next.items == s.items[..i] + s.items[i + 1..]
  {
    match FirstIndex(IdMatch(id), s.items)
    case None => Respond(ItemNotFound)
    case Some(i) =>
      Persist(s.(items := RemoveAt(s.items, i)),
              Response(200, Message("Item deleted successfully")),
              Response(500, Error("Failed to delete item")))
  }

  /** GET /api/subscribers. */
  function ListSubscribers(s: Snapshot): (e: Effect<Snapshot>)
    ensures e.Respond? && e.response.status == 200 && e.response.body.Subscribers?
    ensures e.response.body.subscribers == s.subscribers
  {
    Respond(Response(200, Subscribers(s.subscribers)))
  }

  /** `!email || !email.includes('@')` fails; an absent email is `None`. */
  predicate ValidEmail(email: Option<string>)
  {
    email.Some? && email.value != "" && '@' in email.value
  }

  ghost predicate EmailTaken(subs: seq<Subscriber>, email: string)
  {
    exists j :: 0 <= j < |subs| && subs[j].email == email
  }

  /** POST /api/subscribe: validate, reject a known address, otherwise append. */
  function Subscribe(s: Snapshot, email: Option<string>, now: nat, nowIso: string): (e: Effect<Snapshot>)
    ensures !ValidEmail(email) ==> e == Respond(Response(400, Error("Valid email required")))
    ensures ValidEmail(email) && EmailTaken(s.subscribers, email.value) ==>
      e == Respond(Response(409, Error("Email already subscribed")))
    ensures ValidEmail(email) && !EmailTaken(s.subscribers, email.value) ==>
      && e.Persist?
      && e.next == s.(subscribers := s.subscribers + [Subscriber(Decimal.Text(now), email.value, nowIso)])
      && e.saved == Response(201, Subscribed("Subscribed successfully", Subscriber(Decimal.Text(now), email.value, nowIso)))
      && e.failed == Response(500, Error("Failed to subscribe"))
  {
    if !ValidEmail(email) then Respond(Response(400, Error("Valid email required")))
    else if FirstIndex(EmailMatch(email.value), s.subscribers).Some? then
      Respond(Response(409, Error("Email already subscribed")))
    else
      var sub := Subscriber(Decimal.Text(now), email.value, nowIso);
      Persist(s.(subscribers := s.subscribers + [sub]),
              Response(201, Subscribed("Subscribed successfully", sub)),
              Response(500, Error("Failed to subscribe")))
  }

  /** DELETE /api/subscribers/:id: splice out the first subscriber with that id. */
  function DeleteSubscriber(s: Snapshot, id: string): (e: Effect<Snapshot>)
    ensures e.Respond? <==> NoSubscriberWithId(s.subscribers, id)
    ensures e.Respond? ==> e.response == SubscriberNotFound
    ensures e.Persist? ==>
      && e.saved == Response(200, Message("Subscriber deleted successfully"))
      && e.failed == Response(500, Error("Failed to delete subscriber"))
      && e.next.items == s.items && e.next.admin == s.admin
      && exists i :: IsFirst(SubscriberIdMatch(id), s.subscribers, i)
           && e.next.subscribers == s.subscribers[..i] + s.subscribers[i + 1..]
  {
    match FirstIndex(SubscriberIdMatch(id), s.subscribers)
    case None => Respond(SubscriberNotFound)
    case Some(i) =>
      Persist(s.(subscribers := RemoveAt(s.subscribers, i)),
              Response(200, Message("Subscriber deleted successfully")),
              Response(500, Error("Failed to delete subscriber")))
  }

  const TokenPrefix := "paradox_token_"

  /** POST /api/login: both fields must equal the stored credential exactly. */
  function Login(s: Snapshot, username: Option<string>, password: Option<string>, now: nat): (e: Effect<Snapshot>)
    ensures e.Respond?
    ensures e.response.status == 200 <==> username == Some(s.admin.username) && password == Some(s.admin.password)
    ensures e.response.status != 200 ==> e.response == Response(401, LoginFailed(Some("Invalid credentials")))
    ensures e.response.status == 200 ==>
      && e.response.body.LoginOk?
      && e.response.body.note == Some("Authentication successful")
      && |e.response.body.token| > |TokenPrefix|
      && e.response.body.token[..|TokenPrefix|] == TokenPrefix
      && Decimal.AllDigits(e.response.body.token[|TokenPrefix|..])
      && Decimal.Parse(e.response.body.token[|TokenPrefix|..]) == now
      && (|e.response.body.token| > |TokenPrefix| + 1 ==> e.response.body.token[|TokenPrefix|] != '0')
  {
    if username == Some(s.admin.username) && password == Some(s.admin.password) then
      var token := TokenPrefix + Decimal.Text(now);
      Decimal.ParseText(now);
      assert token[|TokenPrefix|..] == Decimal.Text(now);
      Respond(Response(200, LoginOk(token, Some("Authentication successful"))))
    else
      Respond(Response(401, LoginFailed(Some("Invalid credentials"))))
  }

  datatype Request =
    | GetActive
    | GetAll
    | GetOne(id: string)
    | PostItem(body: Record)
    | PutItem(id: string, body: Record)
    | DeleteItem(id: string)
    | GetSubscribers
    | PostSubscribe(email: Option<string>)
    | DeleteSubscriberById(id: string)
    | PostLogin(username: Option<string>, password: Option<string>)

  /** Express tries `/api/items/all` before `/api/items/:id` and ignores letter case in paths,
      so these segments never reach the lookup by id. */
  predicate NamesAll(segment: string)
  {
    |segment| == 3 && segment[0] in "aA" && segment[1] in "lL" && segment[2] in "lL"
  }

  /** An id the client can splice into `/api/items/${id}` and that Express hands back unchanged
      as `req.params.id`: non-empty, not a dot segment, and free of the characters that end,
      split or escape a path (`/`, `\`, `?`, `#`, `%`). */
  predicate PathSafe(id: string)
  {
    && id != "" && id != "." && id != ".."
    && '/' !in id && '\\' !in id && '?' !in id && '#' !in id && '%' !in id
  }

  /** The route `GET /api/items/<segment>` reaches. */
  function ItemsPath(segment: string): (req: Request)
    ensures req == GetAll <==> NamesAll(segment)
    ensures !NamesAll(segment) ==> req == GetOne(segment)
  {
    if NamesAll(segment) then GetAll else GetOne(segment)
  }

  /** The clock (`Date.now()` and its ISO form) and whether the file system accepts writes. */
  datatype Env = Env(now: nat, nowIso: string, writeOk: bool)

  function Handle(s: Snapshot, env: Env, req: Request): Effect<Snapshot>
  {
    match req
    case GetActive => ListActive(s)
    case GetAll => ListAll(s)
    case GetOne(id) => GetItem(s, id)
    case PostItem(body) => Create(s, body, env.now, env.nowIso)
    case PutItem(id, body) => Update(s, id, body)
    case DeleteItem(id) => Delete(s, id)
    case GetSubscribers => ListSubscribers(s)
    case PostSubscribe(email) => Subscribe(s, email, env.now, env.nowIso)
    case DeleteSubscriberById(id) => DeleteSubscriber(s, id)
    case PostLogin(username, password) => Login(s, username, password, env.now)
  }

  /** Only a malformed subscription is answered before the file is read. */
  predicate ReadsStore(req: Request)
  {
    !(req.PostSubscribe? && !ValidEmail(req.email))
  }

  predicate Mutates(req: Request)
  {
    req.PostItem? || req.PutItem? || req.DeleteItem? || req.PostSubscribe? || req.DeleteSubscriberById?
  }

  /** One request against the backing file. */
  function Serve(file: FileState<Snapshot>, env: Env, req: Request): (r: Reply<FileState<Snapshot>>)
    ensures !Mutates(req) ==> r.state == AfterRead(file, env.writeOk)
    ensures !ReadsStore(req) ==> r == Reply(Response(400, Error("Valid email required")), file)
    ensures r.state != file ==> r.state.Parsed? && env.writeOk
    ensures r.response.status == 500 ==> Load(r.state) == Load(file) && !env.writeOk
  {
    var before := if ReadsStore(req) then AfterRead(file, env.writeOk) else file;
    Apply(before, Handle(Load(file), env, req), env.writeOk)
  }
}

=== FILE: store_facts.dfy ===
/** Properties of the current server that relate several requests: what a
    later read sees after a write, which invariants every handler keeps, and
    how a missing or corrupt file is masked. */
module StoreFacts {
  import opened Seqs
  import opened Data
  import opened Store
  import Decimal

  /** No two stored items carry the same string id. */
  ghost predicate UniqueIds(items: seq<Record>)
  {
    forall i, j, id :: 0 <= i < |items| && 0 <= j < |items| && HasId(items[i], id) && HasId(items[j], id) ==> i == j
  }

  /** No two subscribers share an address. */
  ghost predicate UniqueEmails(subs: seq<Subscriber>)
  {
    forall i, j :: 0 <= i < |subs| && 0 <= j < |subs| && subs[i].email == subs[j].email ==> i == j
  }

  ghost predicate UniqueSubscriberIds(subs: seq<Subscriber>)
  {
    forall i, j :: 0 <= i < |subs| && 0 <= j < |subs| && subs[i].id == subs[j].id ==> i == j
  }

  /** The public listing is the full listing with the inactive items taken out. */
  lemma ActiveListingWithinAll(s: Snapshot)
    ensures IsSubsequence(ListActive(s).response.body.items, ListAll(s).response.body.items)
    ensures forall r :: r in ListAll(s).response.body.items ==>
      (r in ListActive(s).response.body.items <==> IsActive(r))
  {
  }

  /** A created item is what a later lookup of its generated id returns, provided the id was fresh. */
  lemma CreateThenGet(s: Snapshot, body: Record, now: nat, nowIso: string)
    requires IdKey !in body
    requires NoItemWithId(s.items, Decimal.Text(now))
    ensures var e := Create(s, body, now, nowIso);
      && GetItem(e.next, Decimal.Text(now)).response == Response(200, One(e.next.items[|s.items|]))
      && IsActive(e.next.items[|s.items|])
      && e.next.items[|s.items|][CreatedAtKey] == JStr(nowIso)
  {
    var e := Create(s, body, now, nowIso);
    var id := Decimal.Text(now);
    forall j | 0 <= j < |s.items|
      ensures !HasId(e.next.items[j], id)
    {
      assert e.next.items[j] == e.next.items[..|s.items|][j];
    }
    assert IsFirst(IdMatch(id), e.next.items, |s.items|);
  }

  /** Creating with a fresh generated id keeps ids unique. */
  lemma CreateKeepsIdsUnique(s: Snapshot, body: Record, now: nat, nowIso: string)
    requires UniqueIds(s.items)
    requires IdKey !in body
    requires NoItemWithId(s.items, Decimal.Text(now))
    ensures UniqueIds(Create(s, body, now, nowIso).next.items)
  {
    var e := Create(s, body, now, nowIso);
    var items := e.next.items;
    forall i, j, id | 0 <= i < |items| && 0 <= j < |items| && HasId(items[i], id) && HasId(items[j], id)
      ensures i == j
    {
      if i < |s.items| { assert items[i] == items[..|s.items|][i]; }
      if j < |s.items| { assert items[j] == items[..|s.items|][j]; }
    }
  }

  /** Because the body is spread after the generated id, a body naming an existing id stores a duplicate. */
  lemma CreateWithTakenIdDuplicates(s: Snapshot, body: Record, now: nat, nowIso: string, k: nat)
    requires k < |s.items| && IdKey in body && body[IdKey].JStr? && HasId(s.items[k], body[IdKey].str)
    ensures !UniqueIds(Create(s, body, now, nowIso).next.items)
  {
    var items := Create(s, body, now, nowIso).next.items;
    assert items[k] == items[..|s.items|][k];
    assert HasId(items[k], body[IdKey].str) && HasId(items[|s.items|], body[IdKey].str);
  }

  /** An update keeps the id of the record it changes, so ids stay unique. */
  lemma UpdateKeepsIdsUnique(s: Snapshot, id: string, body: Record)
    requires UniqueIds(s.items)
    ensures Update(s, id, body).Persist? ==> UniqueIds(Update(s, id, body).next.items)
  {
    var e := Update(s, id, body);
    if e.Persist? {
      var i :| IsFirst(IdMatch(id), s.items, i) && e.next.items == s.items[i := e.saved.body.item]
               && IsMerge(s.items[i], body, e.saved.body.item);
      var n := e.saved.body.item;
      assert IdKey in n && n[IdKey] == s.items[i][IdKey];
      var items := e.next.items;
      forall a, b, x | 0 <= a < |items| && 0 <= b < |items| && HasId(items[a], x) && HasId(items[b], x)
        ensures a == b
      {
        assert HasId(s.items[a], x) && HasId(s.items[b], x);
      }
    }
  }

  /** Deleting never introduces a duplicate id. */
  lemma DeleteKeepsIdsUnique(s: Snapshot, id: string)
    requires UniqueIds(s.items)
    ensures Delete(s, id).Persist? ==> UniqueIds(Delete(s, id).next.items)
  {
    var e := Delete(s, id);
    if e.Persist? {
      var i :| IsFirst(IdMatch(id), s.items, i) && e.next.items == s.items[..i] + s.items[i + 1..];
      var items := e.next.items;
      forall a, b, x | 0 <= a < |items| && 0 <= b < |items| && HasId(items[a], x) && HasId(items[b], x)
        ensures a == b
      {
        var a' := if a < i then a else a + 1;
        var b' := if b < i then b else b + 1;
        assert items[a] == s.items[a'] && items[b] == s.items[b'];
      }
    }
  }

  /** With unique ids, a deleted item can no longer be fetched. */
  lemma DeleteThenGetMissing(s: Snapshot, id: string)
    requires UniqueIds(s.items)
    ensures Delete(s, id).Persist? ==> GetItem(Delete(s, id).next, id).response == ItemNotFound
  {
    var e := Delete(s, id);
    if e.Persist? {
      var i :| IsFirst(IdMatch(id), s.items, i) && e.next.items == s.items[..i] + s.items[i + 1..];
      forall a | 0 <= a < |e.next.items|
        ensures !HasId(e.next.items[a], id)
      {
        var a' := if a < i then a else a + 1;
        assert e.next.items[a] == s.items[a'];
      }
    }
  }

  /** Setting `status` to `'inactive'` drops the item from GET /api/items but not from GET /api/items/all. */
  lemma DeactivateHidesItem(s: Snapshot, id: string)
    ensures var e := Update(s, id, map[StatusKey := JStr("inactive")]);
      e.Persist? ==>
        && e.saved.body.item !in ListActive(e.next).response.body.items
        && e.saved.body.item in ListAll(e.next).response.body.items
        && HasId(e.saved.body.item, id)
  {
    var body := map[StatusKey := JStr("inactive")];
    var e := Update(s, id, body);
    if e.Persist? {
      var i :| IsFirst(IdMatch(id), s.items, i) && e.next.items == s.items[i := e.saved.body.item]
               && IsMerge(s.items[i], body, e.saved.body.item);
      assert e.next.items[i] == e.saved.body.item;
      assert HasId(s.items[i], id);
    }
  }

  /** A successful subscription keeps addresses unique (the 409 check guards it). */
  lemma SubscribeKeepsEmailsUnique(s: Snapshot, email: Option<string>, now: nat, nowIso: string)
    requires UniqueEmails(s.subscribers)
    ensures Subscribe(s, email, now, nowIso).Persist? ==> UniqueEmails(Subscribe(s, email, now, nowIso).next.subscribers)
  {
    var e := Subscribe(s, email, now, nowIso);
    if e.Persist? {
      var subs := e.next.subscribers;
      forall i, j | 0 <= i < |subs| && 0 <= j < |subs| && subs[i].email == subs[j].email
        ensures i == j
      {
        if i < |s.subscribers| && j < |s.subscribers| {
          assert subs[i] == s.subscribers[i] && subs[j] == s.subscribers[j];
        }
      }
    }
  }

  /** Subscribing the same valid address twice: the second attempt is a 409 and changes nothing. */
  lemma SubscribeTwiceConflicts(s: Snapshot, email: Option<string>, now1: nat, iso1: string, now2: nat, iso2: string)
    requires ValidEmail(email)
    ensures var e1 := Subscribe(s, email, now1, iso1);
      && (e1.Respond? ==> e1.response.status == 409)
      && (e1.Persist? ==> Subscribe(e1.next, email, now2, iso2) == Respond(Response(409, Error("Email already subscribed"))))
  {
    var e1 := Subscribe(s, email, now1, iso1);
    if e1.Persist? {
      assert e1.next.subscribers[|s.subscribers|].email == email.value;
    }
  }

  /** Deleting a subscriber keeps addresses and ids unique. */
  lemma DeleteSubscriberKeepsUnique(s: Snapshot, id: string)
    requires UniqueEmails(s.subscribers) && UniqueSubscriberIds(s.subscribers)
    ensures var e := DeleteSubscriber(s, id);
      e.Persist? ==> UniqueEmails(e.next.subscribers) && UniqueSubscriberIds(e.next.subscribers)
  {
    var e := DeleteSubscriber(s, id);
    if e.Persist? {
      var i :| IsFirst(SubscriberIdMatch(id), s.subscribers, i)
               && e.next.subscribers == s.subscribers[..i] + s.subscribers[i + 1..];
      var subs := e.next.subscribers;
      forall a | 0 <= a < |subs|
        ensures subs[a] == s.subscribers[if a < i then a else a + 1]
      {
      }
    }
  }

  /** Every id the server generates passes through the item URL unchanged. */
  lemma GeneratedIdsPathSafe(n: nat)
    ensures PathSafe(Decimal.Text(n))
  {
    var t := Decimal.Text(n);
    assert Decimal.AllDigits(t) && |t| > 0;
    assert t != "." && t != "..";
  }

  /** A `GET` of the item path `all`, in any letter case, answers the full listing, so an item
      whose body gave it such an id is never fetched by its id. */
  lemma AllPathShadowsItem(s: Snapshot, env: Env, segment: string)
    requires NamesAll(segment)
    ensures Handle(s, env, ItemsPath(segment)).response == Response(200, Items(s.items))
    ensures forall i :: 0 <= i < |s.items| ==> Handle(s, env, ItemsPath(segment)).response.body != One(s.items[i])
  {
  }

  /** An update or delete naming an unknown id answers 404 and writes nothing beyond what reading the file does. */
  lemma UnknownIdWritesNothing(file: FileState<Snapshot>, env: Env, id: string, body: Record)
    requires NoItemWithId(Load(file).items, id)
    ensures Serve(file, env, PutItem(id, body)) == Reply(ItemNotFound, AfterRead(file, env.writeOk))
    ensures Serve(file, env, DeleteItem(id)) == Reply(ItemNotFound, AfterRead(file, env.writeOk))
  {
  }

  /** The address check runs before the file is read: the answer and the file do not depend on the store. */
  lemma ValidationPrecedesRead(f1: FileState<Snapshot>, f2: FileState<Snapshot>, env: Env, email: Option<string>)
    requires !ValidEmail(email)
    ensures Serve(f1, env, PostSubscribe(email)).response == Serve(f2, env, PostSubscribe(email)).response
    ensures Serve(f1, env, PostSubscribe(email)).response.status == 400
    ensures Serve(f1, env, PostSubscribe(email)).state == f1
  {
  }

  /** A missing or corrupt file answers every request exactly as the default document would. */
  lemma CorruptionMasked(env: Env, req: Request)
    ensures Serve(Corrupt, env, req).response == Serve(Parsed(DefaultData), env, req).response
    ensures Serve(Missing, env, req).response == Serve(Parsed(DefaultData), env, req).response
  {
  }

  /** With no data file, the built-in credential logs in and a wrong password does not. */
  lemma DefaultCredential(env: Env, file: FileState<Snapshot>)
    requires !file.Parsed?
    ensures Serve(file, env, PostLogin(Some("admin"), Some("paradox"))).response.status == 200
    ensures Serve(file, env, PostLogin(Some("admin"), Some("wrong"))).response.status == 401
  {
  }

  /** A failed write leaves the data every later request reads unchanged, and the handler reports 500. */
  lemma FailedWriteKeepsData(file: FileState<Snapshot>, env: Env, req: Request)
    requires !env.writeOk
    ensures Load(Serve(file, env, req).state) == Load(file)
    ensures Handle(Load(file), env, req).Persist? ==> Serve(file, env, req).response.status == 500
  {
  }

  /** A write on top of a corrupt file replaces its content with the default document plus the change. */
  lemma CorruptFileOverwritten(env: Env, body: Record)
    requires env.writeOk
    ensures var r := Serve(Corrupt, env, PostItem(body));
      && r.state.Parsed?
      && |r.state.data.items| == 4
      && r.state.data.items[..3] == DefaultData.items
  {
  }

  /** Starting from an empty store: create, list publicly and in full, deactivate, list again. */
  lemma Lifecycle(admin: Credential, body: Record, env1: Env, env2: Env)
    requires env1.writeOk && env2.writeOk && IdKey !in body
    ensures
      var r1 := Serve(Parsed(Snapshot([], [], admin)), env1, PostItem(body));
      var r2 := Serve(r1.state, env2, PutItem(Decimal.Text(env1.now), map[StatusKey := JStr("inactive")]));
      && r1.response.status == 201 && r1.response.body.One? && IsActive(r1.response.body.item)
      && Serve(r1.state, env2, GetActive).response.body == Items([r1.response.body.item])
      && Serve(r1.state, env2, GetAll).response.body == Items([r1.response.body.item])
      && r2.response.status == 200 && r2.response.body.One?
      && Serve(r2.state, env2, GetActive).response.body == Items([])
      && Serve(r2.state, env2, GetAll).response.body == Items([r2.response.body.item])
  {
    var r1 := Serve(Parsed(Snapshot([], [], admin)), env1, PostItem(body));
    CreateIntoEmpty(admin, body, env1);
    var s1, n := r1.state.data, r1.response.body.item;
    ListedAlone(s1, n);
    ListingsServed(s1, env2);
    DeactivateAlone(s1, n, Decimal.Text(env1.now), env2);
    var r2 := Serve(r1.state, env2, PutItem(Decimal.Text(env1.now), map[StatusKey := JStr("inactive")]));
    var s2 := r2.state.data;
    ListedAlone(s2, r2.response.body.item);
    ListingsServed(s2, env2);
  }

  /** On a parsed file the two listings answer what their handlers compute on the document. */
  lemma ListingsServed(s: Snapshot, env: Env)
    ensures Serve(Parsed(s), env, GetActive).response == ListActive(s).response
    ensures Serve(Parsed(s), env, GetAll).response == ListAll(s).response
  {
  }

  /** A create on an empty store leaves exactly the new, active record under the clock's id. */
  lemma CreateIntoEmpty(admin: Credential, body: Record, env: Env)
    requires env.writeOk && IdKey !in body
    ensures var r := Serve(Parsed(Snapshot([], [], admin)), env, PostItem(body));
      && r.response.status == 201 && r.response.body.One?
      && r.state == Parsed(Snapshot([r.response.body.item], [], admin))
      && IsActive(r.response.body.item) && HasId(r.response.body.item, Decimal.Text(env.now))
  {
    var s0 := Snapshot([], [], admin);
    var e := Create(s0, body, env.now, env.nowIso);
    var n := e.next.items[0];
    assert Serve(Parsed(s0), env, PostItem(body)) == Reply(Response(201, One(n)), Parsed(e.next));
    assert e.next.items == [n];
  }

  /** Setting the status of a store's only record to inactive rewrites it in place and answers it. */
  lemma DeactivateAlone(s: Snapshot, n: Record, id: string, env: Env)
    requires s.items == [n] && HasId(n, id) && env.writeOk
    ensures var r := Serve(Parsed(s), env, PutItem(id, map[StatusKey := JStr("inactive")]));
      && r.response.status == 200 && r.response.body.One?
      && r.state == Parsed(s.(items := [r.response.body.item]))
      && !IsActive(r.response.body.item)
  {
    var body := map[StatusKey := JStr("inactive")];
    var e := Update(s, id, body);
    assert IsFirst(IdMatch(id), s.items, 0);
    assert e.Persist?;
    var m := e.saved.body.item;
    assert Serve(Parsed(s), env, PutItem(id, body)) == Reply(e.saved, Parsed(e.next));
    assert e.next.items == [m];
  }

  lemma ListedAlone(s: Snapshot, n: Record)
    requires s.items == [n]
    ensures ListAll(s).response.body.items == [n]
    ensures ListActive(s).response.body.items == if IsActive(n) then [n] else []
  {
    assert s.items[1..] == [];
  }
}
